=== FILE: README.md ===
# syncrypt core in Dafny

syncrypt mirrors a source directory into an output directory of PGP-encrypted
artifacts (`<name>.pgp`). It keeps a ledger (an SQLite table
`files(filename UNIQUE, hash UNIQUE, timestamp, deleted)`) of the MD5 digest
string of every file it has encrypted. A pass does the following:

1. It scans the input root.
2. It classifies each file as unchanged, duplicate content, changed, or new.
3. It encrypts changed and new files, and records their digests only after
   encryption succeeds.
4. It flags the rows of files that have disappeared.
5. Optionally, it applies the flagged deletions. Each flagged row is removed,
   and then the row's artifact is deleted, but only if decrypting the artifact
   reproduces the stored digest.

This project models:

- the ledger operations of `HashHelper`;
- the digest string format;
- the classify/sync branch of `ProcessFiles`;
- deletion marking;
- `DeleteFiles`;
- the path expressions that link source files to artifacts;
- one whole `ProcessFiles` pass.

Modules, one per file:

- `Text` (text.dfy): the .NET string operations the program relies on:
  - `String.Replace`: ordinal, left to right, non-overlapping;
  - `Path.GetFileName`, with '/' as the separator;
  - `ToLowerInvariant`.
- `HexDigest` (hex.dfy): `BitConverter.ToString(md5).Replace("-", "").ToLowerInvariant()`. It is proved equal to plain lower-case hex, and that hex is proved to decode back to the digest.
- `HashHelper` (ledger.dfy):
  - the ledger is a `map<string, Row>`;
  - each SQL statement is modelled together with its UNIQUE constraints;
  - `WriteQuery` commits or rolls back;
  - the module also covers StoreHash, the lookups, marking, deletion and the two listings.
- `ArtifactPaths` (paths.dfy): the path expressions exactly as written, plus a prefix-relocating mapping. A `PathRules` value selects one of the two.
- `ChangeClassifier` (classifier.dfy): the four-way decision, one sync step, and the file loop as a fold over the scan.
- `DeletionReconciler` (deletion.dfy): marking missing files, and `DeleteFiles` one name at a time and over the flagged list.
- `SyncPass` (pass.dfy): `ProcessFiles` from key generation to deletion propagation. It also covers `DeleteFiles` as a method over the listed flagged names.

Everything a pass learns from outside is an input. This includes:

- the scan, with a digest per file;
- whether the key files exist;
- whether each directory creation, encryption, decryption and file deletion succeeds;
- the digest of each artifact's decrypted plaintext.

`Environment.Exit(code)` is a terminal `Exited(code, …)` or `Halted(code, …)` result. An exception nothing catches is `Threw` or `Crashed`.

Four things about the code are worth knowing, and the model follows the code on each:

- Hash uniqueness covers flagged rows too. The UNIQUE constraint (HashHelper.cs:30) ignores the `deleted` column. So a file whose content equals that of a flagged row is classified as a duplicate.
- An update never clears the `deleted` flag. `SyncAll` keeps every flag exactly as it was. A file that disappears, is flagged and then comes back keeps its flag. With propagation, its row is then removed.
- When every scanned file is already tracked with its current digest, the file loop writes and encrypts nothing (`UnchangedScanIsNoop`). A first pass does not establish that precondition: a second pass over the same scan can still encrypt when content moves between files (`SecondPassCanEncrypt`). Duplicate skips are not recorded, so the first pass does not reach a fixed point.
- The duplicate test does not compare filenames. A file whose own row already holds its current hash is caught earlier, as unchanged.

## Model

| member | source | states |
|---|---|---|
| Text.Replace | syncrypt/Program.cs:242 | `String.Replace` as a left-to-right, non-overlapping scan; a replacement no longer than the pattern never lengthens the string |
| Text.ReplaceWithoutOccurrence | syncrypt/Program.cs:242 | a string in which the pattern never occurs comes back unchanged |
| Text.ReplaceKeepsCharOut | syncrypt/Program.cs:214 | Replace introduces no character found in neither the input nor the replacement, so stripping ".pgp" from a file name leaves it '/'-free |
| Text.ReplaceIsIdentityIff | syncrypt/Program.cs:214 | removing ".pgp" changes a name exactly when ".pgp" occurs in it |
| Text.ReplaceLeading | syncrypt/Program.cs:242 | when the input root occurs only as the leading prefix, Replace swaps that prefix and nothing else |
| Text.ReplaceCharDistributes | syncrypt/HashHelper.cs:126 | removing a one-character pattern distributes over concatenation |
| Text.GetFileName | syncrypt/Program.cs:302 | the file name is a '/'-free suffix of the path, preceded by '/' unless it is the whole path |
| Text.FileNameUnique | syncrypt/Program.cs:302 | those three facts determine the file name |
| Text.FileNameOfJoin | syncrypt/Program.cs:302 | the file name of `dir + "/" + name` is `name` for a separator-free `name` |
| Text.ToLowerInvariant | syncrypt/HashHelper.cs:126 | lower-casing keeps the length |
| HexDigest.BitConverterToString | syncrypt/HashHelper.cs:126 | n bytes print as 3n-1 characters |
| HexDigest.BitConverterLayout | syncrypt/HashHelper.cs:126 | byte i prints as its upper-case two-digit pair at positions 3i and 3i+1, and a '-' follows every pair but the last |
| HexDigest.DashesRemoved | syncrypt/HashHelper.cs:126 | removing the dashes leaves the bare upper-case pairs |
| HexDigest.LowercasedPairs | syncrypt/HashHelper.cs:126 | lower-casing the upper-case pairs gives the lower-case pairs |
| HexDigest.DecodeLowerHex | syncrypt/HashHelper.cs:126 | lower-case hex decodes back to the bytes |
| HexDigest.HashString | syncrypt/HashHelper.cs:120-128 | the digest string is the lower-case hex of the digest, two chars of [0-9a-f] per byte, with no separators, and decodes back to the digest |
| HexDigest.HashStringInjective | syncrypt/HashHelper.cs:120-128 | distinct digests give distinct strings |
| HexDigest.Md5StringLength | syncrypt/HashHelper.cs:120-128 | a 16-byte MD5 digest gives a 32-character string |
| HashHelper.Execute | syncrypt/HashHelper.cs:30 | an INSERT fails exactly when the filename or the hash is present; an UPDATE of the hash fails exactly when another row holds it; MARK and DELETE always succeed; a committed statement keeps hashes unique |
| HashHelper.WriteQuery | syncrypt/HashHelper.cs:70-85 | a successful statement is committed as executed; a failing statement is rolled back and leaves the ledger as it was; uniqueness survives either way |
| HashHelper.StoreHash | syncrypt/HashHelper.cs:130-145 | insert adds (filename, hash, not deleted) when neither key is present, else no change; update rewrites only that row's hash and keeps its flag, else no change; no flag is ever cleared; uniqueness is preserved |
| HashHelper.GetHashFromDb | syncrypt/HashHelper.cs:147-154 | a tracked name yields its stored hash; an untracked name yields nothing (null) |
| HashHelper.FindDupeHash | syncrypt/HashHelper.cs:156-176 | true exactly when some row, flagged or not, holds the hash |
| HashHelper.FindDupeFileName | syncrypt/HashHelper.cs:178-198 | true exactly when a row with that filename exists |
| HashHelper.MarkForDeletion | syncrypt/HashHelper.cs:208-215 | sets the flag of the named row only; same filenames, same hashes; no change for an untracked name |
| HashHelper.DeleteFromDb | syncrypt/HashHelper.cs:225-232 | removes exactly the named row; every other row is unchanged |
| HashHelper.Enumerate | syncrypt/HashHelper.cs:105-118 | a query's rows are listed once each, exactly the selected names |
| HashHelper.GetDbFilesList | syncrypt/HashHelper.cs:200-206 | lists every filename of the ledger exactly once |
| HashHelper.GetDeletedFiles | syncrypt/HashHelper.cs:217-223 | lists exactly the flagged filenames, once each |
| HashHelper.InsertThenRead | syncrypt/HashHelper.cs:139-154 | after an insert the three lookups see the new row, it is unflagged, and no other filename's hash changed |
| HashHelper.UpdateThenRead | syncrypt/HashHelper.cs:134-137 | after an update the row answers with the new hash, its old hash is no longer held, its deletion flag is kept, and every other row (hash and flag) is unchanged |
| HashHelper.DeleteThenRead | syncrypt/HashHelper.cs:225-232 | after a delete, the filename and (by uniqueness) its hash are free |
| HashHelper.MarkIdempotent | syncrypt/HashHelper.cs:208-215 | marking twice is marking once |
| ArtifactPaths.EncryptTargetAsWritten | syncrypt/Program.cs:242 | every artifact name ends in ".pgp" |
| ArtifactPaths.EncryptTargetAsWrittenCases | syncrypt/Program.cs:242 | a path that does not contain the input root is encrypted next to itself; a path holding the root only as its prefix gets the root swapped for the output root |
| ArtifactPaths.DeleteTargetAsWrittenShape | syncrypt/Program.cs:302 | deletion looks directly under the output root, at the source's file name plus ".pgp", whatever directory the source was in |
| ArtifactPaths.DecryptModeTargetShape | syncrypt/Program.cs:214 | decrypt-only output lies directly under the output root, named as the source with ".pgp" removed; a name without ".pgp" is kept |
| ArtifactPaths.TempWritePathShape | syncrypt/Program.cs:322 | the deletion check decrypts directly into the temp directory, to the file name with ".pgp" removed; a name without ".pgp" is kept |
| ArtifactPaths.TempReadPathAsWrittenShape | syncrypt/Program.cs:335 | the read-back path lies directly in the temp directory and carries the source's unstripped file name |
| ArtifactPaths.MirrorTargetCases | syncrypt/Program.cs:180-184 | under both rules a directory outside the input root is mirrored onto itself, and one holding the root only as its prefix is relocated under the output root |
| ArtifactPaths.AsWrittenTargetsAgreeAtTop | syncrypt/Program.cs:302 | the encryption path and the deletion path agree for a file directly under the root when the root does not recur in the rest of the path |
| ArtifactPaths.AsWrittenNestedTargets | syncrypt/Program.cs:302 | for a file below a subdirectory, encryption writes under the subdirectory but deletion looks directly under the output root |
| ArtifactPaths.AsWrittenNestedTargetsDiffer | syncrypt/Program.cs:302 | "/src/sub/a.txt" is written to "/enc/sub/a.txt.pgp" but looked for at "/enc/a.txt.pgp" |
| ArtifactPaths.AsWrittenCollision | syncrypt/Program.cs:242 | a path repeating the root and a path naming the output root get the same artifact |
| ArtifactPaths.AsWrittenTargetsCollide | syncrypt/Program.cs:242 | "/data/data.txt" and "/data/enc.txt" are both encrypted to "/enc/enc.txt.pgp" |
| ArtifactPaths.RelocateAgreesWithReplace | syncrypt/Program.cs:242 | the prefix-swap mapping equals the written Replace whenever the root occurs only as the prefix |
| ArtifactPaths.ArtifactPathInjective | syncrypt/Program.cs:242 | under the prefix-swap mapping, distinct files below the root never share an artifact |
| ArtifactPaths.IntendedTargetsAgree | syncrypt/Program.cs:302 | under the intended rules, deletion looks for exactly the artifact encryption wrote |
| ArtifactPaths.AsWrittenReadBackMatchesIff | syncrypt/Program.cs:322-335 | the deletion check hashes the file it decrypted exactly when the file name does not contain ".pgp" |
| ArtifactPaths.AsWrittenReadBackMisses | syncrypt/Program.cs:322-335 | for "/src/a.pgp" the check decrypts to "temp/a" and reads "temp/a.pgp" |
| ChangeClassifier.Classify | syncrypt/Program.cs:225-238 | UNCHANGED iff the stored hash equals the current one; otherwise DUPLICATE iff some row holds the hash; otherwise CHANGED iff the name is tracked; otherwise NEW |
| ChangeClassifier.DuplicateHolder | syncrypt/Program.cs:228-231 | the row holding a duplicate's hash belongs to another filename and is the only holder |
| ChangeClassifier.SyncFile | syncrypt/Program.cs:224-251 | a write happens only after a successful encryption; after a successful NEW or CHANGED step the file's stored hash is the current one; update keeps the flag, insert is unflagged; other rows and all flags are unchanged; uniqueness is preserved |
| ChangeClassifier.CopyIsSkipped | syncrypt/Program.cs:228-231 | a copy of a tracked file under another name is a duplicate: nothing is encrypted or written |
| ChangeClassifier.SyncAll | syncrypt/Program.cs:206-258 | over the whole scan: uniqueness is preserved, no row disappears, only scanned names gain or change rows, flags are unchanged, artifacts only accumulate, and there are no more encryptions than scanned files |
| ChangeClassifier.SyncAllWritesOnlyEncrypted | syncrypt/Program.cs:239-250 | a row is added or changed only for a scanned file whose encryption succeeded |
| ChangeClassifier.SyncAllArtifactsFromEncryptions | syncrypt/Program.cs:239-250 | every artifact the loop adds is the encryption target of a scanned file whose encryption succeeded |
| ChangeClassifier.SyncAllEncryptsScannedFiles | syncrypt/Program.cs:239-250 | EncryptFile is asked only for the encryption targets of scanned files |
| ChangeClassifier.UnchangedScanIsNoop | syncrypt/Program.cs:225-255 | when every scanned file is tracked with its current digest, the loop writes and encrypts nothing |
| ChangeClassifier.SecondPassCanEncrypt | syncrypt/Program.cs:224-251 | with every encryption succeeding, a second loop over the same scan can still encrypt (content moving between two files) |
| DeletionReconciler.MarkMissing | syncrypt/Program.cs:267-276 | flags exactly the listed names missing from the scan; same filenames, same hashes, no flag cleared |
| DeletionReconciler.MarkMissingIdempotent | syncrypt/Program.cs:267-276 | marking twice is marking once |
| DeletionReconciler.DeleteOne | syncrypt/Program.cs:298-363 | the row is removed on every outcome; the artifact is deleted only when its plaintext hashes to the stored hash and File.Delete succeeds; exit 1 exactly when the artifact exists and the temp directory or decryption fails; a crash exactly when the hashed file is not the decrypted one |
| DeletionReconciler.IntendedNeverCrashes | syncrypt/Program.cs:335 | reading back the decrypted file never crashes |
| DeletionReconciler.ApplyDeletions | syncrypt/Program.cs:297-363 | rows only disappear; unlisted rows are untouched; a completed run removes every listed row; halts have code 1; every removed artifact is the target of a listed name whose plaintext verified |
| DeletionReconciler.CompletedRunClearsFlags | syncrypt/Program.cs:297-301 | a completed run over the flagged list leaves exactly the unflagged rows |
| DeletionReconciler.IntendedRemovesEncryptedArtifact | syncrypt/Program.cs:302-347 | under the intended rules a verified artifact is the one encryption wrote, and it is deleted with the row |
| DeletionReconciler.MismatchKeepsArtifact | syncrypt/Program.cs:348-351 | on a hash mismatch the row goes and the artifact stays |
| DeletionReconciler.DetectThenApply | syncrypt/Program.cs:267-301 | a file removed from the source is flagged, and applying the flagged list removes its row and its verified artifact |
| DeletionReconciler.AsWrittenOrphansNestedArtifact | syncrypt/Program.cs:302-304 | as written, a nested file's row is deleted but its artifact, which would verify, is never examined |
| DeletionReconciler.AsWrittenCrashesOnPgpName | syncrypt/Program.cs:322-335 | as written, deleting "/src/a.pgp" crashes after its row is gone |
| SyncPass.MirrorDirectories | syncrypt/Program.cs:176-199 | only successfully created mirrors are added; the loop fails exactly when some missing mirror cannot be created; otherwise every mirror exists |
| SyncPass.DecryptAll | syncrypt/Program.cs:209-221 | decrypt-only mode writes each successfully decrypted file to its ".pgp"-stripped name under the output root |
| DeletionReconciler.ApplyDeletionsRemovesVerified | syncrypt/Program.cs:298-347 | conversely to ApplyDeletions: in a run that goes through, the artifact of every listed name that is present, decrypts, is read back from where it was written, matches the stored hash and can be deleted is removed, whatever other names were handled before it |
| SyncPass.DeleteFiles | syncrypt/Program.cs:294-364 | after a normal return exactly the flagged rows are gone; unflagged rows are untouched; halts have code 1; every removed artifact belongs to a flagged name whose plaintext verified; conversely, after a normal return the artifact of every flagged name that was ready to delete is gone (present, temp directory made, plaintext read back from where it was written and matching the stored hash, delete succeeding) |
| SyncPass.ProcessFiles | syncrypt/Program.cs:118-286 | uniqueness survives every pass; key generation always exits, with 0 only outside daemon mode with a key file missing; review exits 0 unchanged; apply never scans; decrypt-only never touches the ledger; a completed pass mirrored every directory and flagged every unscanned row, or with propagation left only unflagged scanned rows; without propagation every new output file is the artifact of a scanned file whose encryption succeeded; applying deletions only removes output files, each the verified target of a flagged row, and a clean exit removes every ready one; with propagation an original output file disappears only as the decryptable target of a dropped row, verified against the original hash when that row was not rescanned |

## Left out

- SQLite plumbing is not modelled: `CreateDB`, `InitDB`, `Connection`, `ReadSingleQuery` and connection errors. The table is a map, and each statement's effect is its SQL meaning. `ReadSingleQuery`'s duplicate-key throw cannot occur under the UNIQUE constraints.
- Timestamps (`CURRENT_TIMESTAMP`) are wall-clock values and are not part of a row.
- MD5 (RFC 1321) is not computed. Each scanned file carries its digest bytes, and the deletion oracle gives the digest of the decrypted plaintext. An unreadable source file, which would make `GetHashFromFile` throw during the scan, is not modelled.
- A failing scan is not modelled: `Directory.GetFiles`/`GetDirectories` (Program.cs:171-172) run outside every try, so a missing input directory throws out of `ProcessFiles`. The scan is an input that cannot fail, and the never-crash results hold apart from it.
- PGP encryption, decryption and key generation are library calls. They appear only as success/failure oracles and the plaintext digest. Key files are not part of the world, so key generation changes nothing in the model.
- File-system effects are inputs:
  - `Directory.GetFiles`/`GetDirectories` give the scan;
  - `File.Exists` of an artifact is membership in the set of output files.
  - An encryption that fails after writing part of an artifact leaves no artifact in the model.
- Temp-directory cleanup (`Directory.Delete`, Program.cs:354-361) is not modelled. The same goes for leftovers when `File.Delete` fails and `continue` skips the cleanup. The crash condition assumes the read-back file does not already exist.
- The daemon timer is not modelled: `System.Timers`, the stop/start bracket, and the interval floor. A pass is one call of `ProcessFiles`.
- Logging, console colours and the log files are not modelled.
- Command-line parsing is not modelled, and neither are the key-path, key-name and password options.
- Windows path separators are not modelled: paths use '/' only.
- Text.ToLowerInvariant: only ASCII letters are lowered, because the strings it is applied to are hex digits.
- Text.Replace: its contract only bounds the length. What it replaces is stated by ReplaceWithoutOccurrence, ReplaceKeepsCharOut, ReplaceLeading and ReplaceIsIdentityIff.
- Each environment oracle answers as a function of the path. The same path within one pass always gets the same answer.

## Findings

The three path defects are modelled with both halves:

- `PathRules.AsWritten` selects the expressions exactly as written.
- `PathRules.Intended` selects one prefix-relocating mapping for encryption, mirroring and deletion. It also reads back the decrypted file.

`SyncAll`, `ApplyDeletions`, `DeleteFiles` and `ProcessFiles` are stated for both rules. Under the intended rules `ApplyDeletions`, `DeleteFiles` and `ProcessFiles` are proved never to crash.

| source | as written | input that shows it | evidently intended | confidence | as-written member | corrected member |
|---|---|---|---|---|---|---|
| syncrypt/Program.cs:242 | `file.Replace(Inputdir, Ouputdir)` replaces every occurrence of the input root, not only the leading one | input "/data", output "/enc": "/data/data.txt" and "/data/enc.txt" are both encrypted to "/enc/enc.txt.pgp" | replace only the leading input root, so distinct files get distinct artifacts | not executed; high that the collision occurs | ArtifactPaths.AsWrittenTargetsCollide | ArtifactPaths.ArtifactPathInjective |
| syncrypt/Program.cs:302 | the deletion target is output root + "/" + file name + ".pgp", which drops the subdirectories | "/src/sub/a.txt" is encrypted to "/enc/sub/a.txt.pgp", but deletion looks at "/enc/a.txt.pgp" and leaves the artifact orphaned | look for the artifact encryption wrote | not executed; high | DeletionReconciler.AsWrittenOrphansNestedArtifact | DeletionReconciler.IntendedRemovesEncryptedArtifact |
| syncrypt/Program.cs:335 | the plaintext is written to the file name with ".pgp" removed (line 322) but read back from the unstripped name | deleting "/src/a.pgp" decrypts to "temp/a", hashes "temp/a.pgp", and `File.OpenRead` throws after the row is removed | hash the file just decrypted | not executed; high | DeletionReconciler.AsWrittenCrashesOnPgpName | DeletionReconciler.IntendedNeverCrashes |

=== FILE: classifier.dfy ===
/**
 * The per-file branch of `ProcessFiles`: compare the file's digest string with
 * the ledger, then skip it as unchanged, skip it as duplicate content,
 * re-encrypt it and update its row, or encrypt it and insert a row. The ledger
 * is written only after `EncryptFile` returned without an exception.
 */
module ChangeClassifier {
  import opened Wrappers
  import opened HexDigest
  import opened HashHelper
  import opened ArtifactPaths

  datatype Decision =
    | Unchanged   // the stored hash equals the current one
    | Duplicate   // the current hash is already in the ledger: skipped with a warning
    | Changed     // the filename is tracked with another hash: re-encrypt, update in place
    | New         // untracked: encrypt, insert

  /** One entry of `Directory.GetFiles`: a path and the MD5 digest of its content. */
  datatype ScannedFile = ScannedFile(path: string, digest: seq<byte>)

  function Paths(files: seq<ScannedFile>): (paths: seq<string>)
    ensures |paths| == |files|
    ensures forall i :: 0 <= i < |files| ==> paths[i] == files[i].path
  {
    seq(|files|, i requires 0 <= i < |files| => files[i].path)
  }

  /**
   * The priority-ordered decision: content identity is checked before path
   * identity, and duplicate detection covers flagged rows too.
   */
  function Classify(l: Ledger, file: string, hash: string): (d: Decision)
    ensures d == Unchanged <==> file in l && l[file].hash == hash
    ensures d == Duplicate <==> !(file in l && l[file].hash == hash) && HashHeld(l, hash)
    ensures d == Changed <==> file in l && !HashHeld(l, hash)
    ensures d == New <==> file !in l && !HashHeld(l, hash)
  {
    if GetHashFromDb(l, file) != Some(hash) then
      if FindDupeHash(l, hash) then Duplicate
      else if FindDupeFileName(l, file) then Changed
      else New
    else Unchanged
  }

  /**
   * When a file is classified as a duplicate, the row holding its hash belongs
   * to a different filename, and under uniqueness that row is the only one.
   */
  lemma DuplicateHolder(l: Ledger, file: string, hash: string) returns (holder: string)
    requires Unique(l)
    requires Classify(l, file, hash) == Duplicate
    ensures holder in l && holder != file && l[holder].hash == hash
    ensures forall g :: g in l && l[g].hash == hash ==> g == holder
  {
    holder :| holder in l && l[holder].hash == hash;
  }

  /** What one file does to the ledger and the output tree. */
  datatype FileStep = FileStep(ledger: Ledger, artifacts: set<string>, decision: Decision, encryptCalled: bool)

  /**
   * Classify one file and act on it. `artifact` is where EncryptFile writes,
   * `encryptOk` whether it returns without an exception. A failed encryption
   * leaves ledger and output tree as they were; a successful one is always
   * followed by a committed write.
   */
  function SyncFile(l: Ledger, artifacts: set<string>, file: string, hash: string,
                    artifact: string, encryptOk: bool): (r: FileStep)
    ensures r.decision == Classify(l, file, hash)
    ensures r.encryptCalled <==> r.decision == Changed || r.decision == New
    ensures r.ledger != l || r.artifacts != artifacts ==> r.encryptCalled && encryptOk
    ensures r.encryptCalled && encryptOk ==>
      GetHashFromDb(r.ledger, file) == Some(hash) && r.artifacts == artifacts + {artifact}
    ensures r.decision == Changed && encryptOk ==> r.ledger == l[file := Row(hash, l[file].deleted)]
    ensures r.decision == New && encryptOk ==> r.ledger == l[file := Row(hash, false)]
    ensures Unique(l) ==> Unique(r.ledger)
    ensures l.Keys <= r.ledger.Keys <= l.Keys + {file}
    ensures forall g :: g in l && g != file ==> r.ledger[g] == l[g]
    ensures forall g :: g in r.ledger ==> (r.ledger[g].deleted <==> g in l && l[g].deleted)
  {
    var d := Classify(l, file, hash);
    match d
    case Unchanged => FileStep(l, artifacts, d, false)
    case Duplicate => FileStep(l, artifacts, d, false)
    case _ =>
      if encryptOk then FileStep(StoreHash(l, file, hash, d == Changed), artifacts + {artifact}, d, true)
      else FileStep(l, artifacts, d, true)
  }

  /** A copy of a tracked file's content under another name is skipped and nothing is written. */
  lemma CopyIsSkipped(l: Ledger, original: string, copy: string, hash: string,
                      artifacts: set<string>, artifact: string, encryptOk: bool)
    requires Unique(l)
    requires original in l && l[original].hash == hash && copy != original
    ensures var r := SyncFile(l, artifacts, copy, hash, artifact, encryptOk);
      r.decision == Duplicate && r.ledger == l && r.artifacts == artifacts && !r.encryptCalled
  {
    assert HashHeld(l, hash);
    if copy in l {
      assert l[copy].hash != hash;
    }
  }

  /** The files of one scan, processed in order. */
  datatype SyncRun = SyncRun(ledger: Ledger, artifacts: set<string>, encryptions: seq<string>)

  /**
   * The file loop of `ProcessFiles`. `encryptions` lists, in order, the
   * artifacts EncryptFile was asked to write. No row disappears, no flag
   * changes, only scanned names gain or change rows, and uniqueness holds
   * throughout.
   */
  function SyncAll(l: Ledger, artifacts: set<string>, files: seq<ScannedFile>,
                   rules: PathRules, input: Root, output: string,
                   encryptOk: string -> bool): (r: SyncRun)
    ensures Unique(l) ==> Unique(r.ledger)
    ensures l.Keys <= r.ledger.Keys
    ensures forall g :: g in r.ledger && g !in l ==> g in Paths(files)
    ensures forall g :: g in l && g !in Paths(files) ==> r.ledger[g] == l[g]
    ensures forall g :: g in r.ledger ==> (r.ledger[g].deleted <==> g in l && l[g].deleted)
    ensures artifacts <= r.artifacts
    ensures |r.encryptions| <= |files|
    decreases |files|
  {
    if |files| == 0 then SyncRun(l, artifacts, [])
    else
      var file := files[0];
      var target := EncryptTarget(rules, input, output, file.path);
      var step := SyncFile(l, artifacts, file.path, HashString(file.digest), target, encryptOk(file.path));
      var rest := SyncAll(step.ledger, step.artifacts, files[1..], rules, input, output, encryptOk);
      assert Paths(files) == [file.path] + Paths(files[1..]);
      SyncRun(rest.ledger, rest.artifacts, (if step.encryptCalled then [target] else []) + rest.encryptions)
  }

  /**
   * Idempotence: when every scanned file is tracked with its current digest,
   * the loop writes nothing and encrypts nothing.
   */
  lemma {:induction false} UnchangedScanIsNoop(l: Ledger, artifacts: set<string>, files: seq<ScannedFile>,
                                               rules: PathRules, input: Root, output: string,
                                               encryptOk: string -> bool)
    requires forall i :: 0 <= i < |files| ==>
      files[i].path in l && l[files[i].path].hash == HashString(files[i].digest)
    ensures SyncAll(l, artifacts, files, rules, input, output, encryptOk) == SyncRun(l, artifacts, [])
    decreases |files|
  {
    if |files| > 0 {
      UnchangedScanIsNoop(l, artifacts, files[1..], rules, input, output, encryptOk);
    }
  }

  /** Unfolds SyncAll once: the first file's step, then the rest of the scan. */
  lemma SyncCons(l: Ledger, artifacts: set<string>, files: seq<ScannedFile>,
                 rules: PathRules, input: Root, output: string, encryptOk: string -> bool)
    requires |files| > 0
    ensures var t := EncryptTarget(rules, input, output, files[0].path);
      var s := SyncFile(l, artifacts, files[0].path, HashString(files[0].digest), t, encryptOk(files[0].path));
      var rest := SyncAll(s.ledger, s.artifacts, files[1..], rules, input, output, encryptOk);
      SyncAll(l, artifacts, files, rules, input, output, encryptOk)
        == SyncRun(rest.ledger, rest.artifacts, (if s.encryptCalled then [t] else []) + rest.encryptions)
  {
  }

  /**
   * Rows changed by a first step only at `paths[0]` and by the later steps only
   * at `paths[1..]`, each with a succeeding encryption, were changed only at
   * `paths`.
   */
  lemma WritesOfCons(l: Ledger, mid: Ledger, r: Ledger, paths: seq<string>, encryptOk: string -> bool)
    requires |paths| > 0
    requires forall g :: g in mid && (g !in l || mid[g] != l[g]) ==> g == paths[0] && encryptOk(g)
    requires forall g :: g in r && (g !in mid || r[g] != mid[g]) ==> g in paths[1..] && encryptOk(g)
    ensures forall g :: g in r && (g !in l || r[g] != l[g]) ==> g in paths && encryptOk(g)
  {
    forall g | g in r && (g !in l || r[g] != l[g])
      ensures g in paths && encryptOk(g)
    {
      if g in mid && r[g] == mid[g] {
        assert paths[0] in paths;
      } else {
        assert g in paths[1..];
      }
    }
  }

  /** A row is added or changed only for a scanned file whose encryption succeeded. */
  lemma {:induction false} SyncAllWritesOnlyEncrypted(l: Ledger, artifacts: set<string>, files: seq<ScannedFile>,
                                                       rules: PathRules, input: Root, output: string,
                                                       encryptOk: string -> bool)
    ensures var r := SyncAll(l, artifacts, files, rules, input, output, encryptOk);
      forall g :: g in r.ledger && (g !in l || r.ledger[g] != l[g]) ==> g in Paths(files) && encryptOk(g)
    decreases |files|
  {
    if |files| > 0 {
      var file := files[0].path;
      var t := EncryptTarget(rules, input, output, file);
      var step := SyncFile(l, artifacts, file, HashString(files[0].digest), t, encryptOk(file));
      var rest := SyncAll(step.ledger, step.artifacts, files[1..], rules, input, output, encryptOk);
      SyncCons(l, artifacts, files, rules, input, output, encryptOk);
      SyncAllWritesOnlyEncrypted(step.ledger, step.artifacts, files[1..], rules, input, output, encryptOk);
      assert Paths(files)[0] == file && Paths(files)[1..] == Paths(files[1..]);
      assert forall g :: g in step.ledger && (g !in l || step.ledger[g] != l[g]) ==> g == file && encryptOk(g);
      WritesOfCons(l, step.ledger, rest.ledger, Paths(files), encryptOk);
    }
  }

  /** Every artifact the loop adds was written for a scanned file whose encryption succeeded. */
  lemma {:induction false} SyncAllArtifactsFromEncryptions(l: Ledger, artifacts: set<string>, files: seq<ScannedFile>,
                                                           rules: PathRules, input: Root, output: string,
                                                           encryptOk: string -> bool)
    ensures var r := SyncAll(l, artifacts, files, rules, input, output, encryptOk);
      forall a :: a in r.artifacts && a !in artifacts ==>
        exists f :: f in Paths(files) && encryptOk(f) && a == EncryptTarget(rules, input, output, f)
    decreases |files|
  {
    if |files| > 0 {
      var file := files[0].path;
      var t := EncryptTarget(rules, input, output, file);
      var step := SyncFile(l, artifacts, file, HashString(files[0].digest), t, encryptOk(file));
      var r := SyncAll(l, artifacts, files, rules, input, output, encryptOk);
      SyncCons(l, artifacts, files, rules, input, output, encryptOk);
      SyncAllArtifactsFromEncryptions(step.ledger, step.artifacts, files[1..], rules, input, output, encryptOk);
      assert Paths(files) == [file] + Paths(files[1..]);
      forall a | a in r.artifacts && a !in artifacts
        ensures exists f :: f in Paths(files) && encryptOk(f) && a == EncryptTarget(rules, input, output, f)
      {
        if a in step.artifacts {
          assert a == t && file in Paths(files) && encryptOk(file);
        } else {
          var f :| f in Paths(files[1..]) && encryptOk(f) && a == EncryptTarget(rules, input, output, f);
          assert f in Paths(files);
        }
      }
    }
  }

  /** Targets of the first path, followed by targets of the later paths, are all targets of some path. */
  lemma TargetsOfCons(paths: seq<string>, prefix: seq<string>, rest: seq<string>,
                      rules: PathRules, input: Root, output: string)
    requires |paths| > 0
    requires forall t :: t in prefix ==> t == EncryptTarget(rules, input, output, paths[0])
    requires forall t :: t in rest ==> exists f :: f in paths[1..] && t == EncryptTarget(rules, input, output, f)
    ensures forall t :: t in prefix + rest ==> exists f :: f in paths && t == EncryptTarget(rules, input, output, f)
  {
    forall t | t in prefix + rest
      ensures exists f :: f in paths && t == EncryptTarget(rules, input, output, f)
    {
      if t in prefix {
        assert paths[0] in paths;
      } else {
        var f :| f in paths[1..] && t == EncryptTarget(rules, input, output, f);
        assert f in paths;
      }
    }
  }

  /** EncryptFile is only ever asked for the artifact of a scanned file. */
  lemma {:induction false} SyncAllEncryptsScannedFiles(l: Ledger, artifacts: set<string>, files: seq<ScannedFile>,
                                                       rules: PathRules, input: Root, output: string,
                                                       encryptOk: string -> bool)
    ensures var r := SyncAll(l, artifacts, files, rules, input, output, encryptOk);
      forall t :: t in r.encryptions ==> exists f :: f in Paths(files) && t == EncryptTarget(rules, input, output, f)
    decreases |files|
  {
    if |files| > 0 {
      var file := files[0].path;
      var t0 := EncryptTarget(rules, input, output, file);
      var step := SyncFile(l, artifacts, file, HashString(files[0].digest), t0, encryptOk(file));
      var rest := SyncAll(step.ledger, step.artifacts, files[1..], rules, input, output, encryptOk);
      SyncCons(l, artifacts, files, rules, input, output, encryptOk);
      SyncAllEncryptsScannedFiles(step.ledger, step.artifacts, files[1..], rules, input, output, encryptOk);
      assert Paths(files)[0] == file && Paths(files)[1..] == Paths(files[1..]);
      TargetsOfCons(Paths(files), if step.encryptCalled then [t0] else [], rest.encryptions, rules, input, output);
    }
  }

  /** Unfolds SyncAll over a two-file scan into its two steps. */
  lemma SyncTwo(l: Ledger, artifacts: set<string>, f0: ScannedFile, f1: ScannedFile,
                rules: PathRules, input: Root, output: string, encryptOk: string -> bool)
    ensures var t0, t1 := EncryptTarget(rules, input, output, f0.path), EncryptTarget(rules, input, output, f1.path);
      var s0 := SyncFile(l, artifacts, f0.path, HashString(f0.digest), t0, encryptOk(f0.path));
      var s1 := SyncFile(s0.ledger, s0.artifacts, f1.path, HashString(f1.digest), t1, encryptOk(f1.path));
      SyncAll(l, artifacts, [f0, f1], rules, input, output, encryptOk)
        == SyncRun(s1.ledger, s1.artifacts,
                   (if s0.encryptCalled then [t0] else []) + (if s1.encryptCalled then [t1] else []))
  {
    var t0 := EncryptTarget(rules, input, output, f0.path);
    var s0 := SyncFile(l, artifacts, f0.path, HashString(f0.digest), t0, encryptOk(f0.path));
    SyncCons(l, artifacts, [f0, f1], rules, input, output, encryptOk);
    assert [f0, f1][1..] == [f1];
    SyncCons(s0.ledger, s0.artifacts, [f1], rules, input, output, encryptOk);
    assert [f1][1..] == [];
  }

  /** First loop of the shift scenario: `a` duplicates `b`'s stored content and is skipped, `b` is updated. */
  lemma ShiftFirstLoop(fa: ScannedFile, fb: ScannedFile, h1: string, h2: string, h3: string,
                       rules: PathRules, input: Root, output: string, artifacts: set<string>,
                       encryptOk: string -> bool)
    requires fa.path != fb.path && h1 != h2 && h2 != h3 && h1 != h3
    requires HashString(fa.digest) == h2 && HashString(fb.digest) == h3
    requires encryptOk(fb.path)
    ensures var tb := EncryptTarget(rules, input, output, fb.path);
      SyncAll(map[fa.path := Row(h1, false), fb.path := Row(h2, false)], artifacts, [fa, fb], rules, input, output, encryptOk)
        == SyncRun(map[fa.path := Row(h1, false), fb.path := Row(h3, false)], artifacts + {tb}, [tb])
  {
    var a, b := fa.path, fb.path;
    var l := map[a := Row(h1, false), b := Row(h2, false)];
    var ta, tb := EncryptTarget(rules, input, output, a), EncryptTarget(rules, input, output, b);
    assert l[b].hash == h2;
    var s0 := SyncFile(l, artifacts, a, h2, ta, encryptOk(a));
    assert s0.decision == Duplicate;
    assert !HashHeld(l, h3);
    var s1 := SyncFile(l, artifacts, b, h3, tb, true);
    assert s1.decision == Changed;
    assert s1.ledger == map[a := Row(h1, false), b := Row(h3, false)];
    SyncTwo(l, artifacts, fa, fb, rules, input, output, encryptOk);
  }

  /** Second loop of the shift scenario: `a`'s content is now free, so `a` is updated; `b` is unchanged. */
  lemma ShiftSecondLoop(fa: ScannedFile, fb: ScannedFile, h1: string, h2: string, h3: string,
                        rules: PathRules, input: Root, output: string, artifacts: set<string>,
                        encryptOk: string -> bool)
    requires fa.path != fb.path && h1 != h2 && h2 != h3 && h1 != h3
    requires HashString(fa.digest) == h2 && HashString(fb.digest) == h3
    requires encryptOk(fa.path)
    ensures SyncAll(map[fa.path := Row(h1, false), fb.path := Row(h3, false)], artifacts, [fa, fb], rules, input, output, encryptOk).encryptions
         == [EncryptTarget(rules, input, output, fa.path)]
  {
    var a, b := fa.path, fb.path;
    var l := map[a := Row(h1, false), b := Row(h3, false)];
    var ta, tb := EncryptTarget(rules, input, output, a), EncryptTarget(rules, input, output, b);
    assert !HashHeld(l, h2);
    var u0 := SyncFile(l, artifacts, a, h2, ta, true);
    assert u0.decision == Changed;
    assert u0.ledger == l[a := Row(h2, false)];
    var u1 := SyncFile(u0.ledger, u0.artifacts, b, h3, tb, encryptOk(b));
    assert u1.decision == Unchanged;
    SyncTwo(l, artifacts, fa, fb, rules, input, output, encryptOk);
  }

  /**
   * The converse of idempotence does not hold: with every encryption
   * succeeding, a second loop over the same scan can still encrypt. Here `a`
   * takes over `b`'s old content while `b` changes: on the first pass `a` is a
   * duplicate of `b`'s row, on the second it is an ordinary update.
   */
  lemma SecondPassCanEncrypt(a: string, b: string, d1: seq<byte>, d2: seq<byte>, d3: seq<byte>,
                             rules: PathRules, input: Root, output: string, artifacts: set<string>,
                             encryptOk: string -> bool)
    requires a != b
    requires d1 != d2 && d2 != d3 && d1 != d3
    requires encryptOk(a) && encryptOk(b)
    ensures var l := map[a := Row(HashString(d1), false), b := Row(HashString(d2), false)];
      var scan := [ScannedFile(a, d2), ScannedFile(b, d3)];
      var first := SyncAll(l, artifacts, scan, rules, input, output, encryptOk);
      var second := SyncAll(first.ledger, first.artifacts, scan, rules, input, output, encryptOk);
      first.encryptions == [EncryptTarget(rules, input, output, b)]
      && second.encryptions == [EncryptTarget(rules, input, output, a)]
  {
    var h1, h2, h3 := HashString(d1), HashString(d2), HashString(d3);
    if h1 == h2 { HashStringInjective(d1, d2); }
    if h2 == h3 { HashStringInjective(d2, d3); }
    if h1 == h3 { HashStringInjective(d1, d3); }
    var fa, fb := ScannedFile(a, d2), ScannedFile(b, d3);
    var tb := EncryptTarget(rules, input, output, b);
    ShiftFirstLoop(fa, fb, h1, h2, h3, rules, input, output, artifacts, encryptOk);
    ShiftSecondLoop(fa, fb, h1, h2, h3, rules, input, output, artifacts + {tb}, encryptOk);
  }
}

=== FILE: deletion.dfy ===
/**
 * Deletion handling: the marking loop at the end of `ProcessFiles`, and
 * `DeleteFiles`, which removes each flagged row first and then deletes the
 * row's artifact only if decrypting it reproduces the stored hash.
 */
module DeletionReconciler {
  import opened Wrappers
  import opened HexDigest
  import opened HashHelper
  import opened ArtifactPaths

  /**
   * The marking loop: every name of `dbFiles` that is not among the scanned
   * paths is flagged. No row appears or disappears and no hash changes.
   */
  function MarkMissing(l: Ledger, dbFiles: seq<string>, scanned: seq<string>): (r: Ledger)
    ensures r.Keys == l.Keys
    ensures forall f :: f in r ==> r[f].hash == l[f].hash
    ensures forall f :: f in r ==> (r[f].deleted <==> l[f].deleted || (f in dbFiles && f !in scanned))
    decreases |dbFiles|
  {
    if |dbFiles| == 0 then l
    else
      var f := dbFiles[0];
      var marked := if f !in scanned then MarkForDeletion(l, f) else l;
      assert forall g :: g in dbFiles <==> g == f || g in dbFiles[1..];
      MarkMissing(marked, dbFiles[1..], scanned)
  }

  /** Marking is unaffected by running it again: flagged rows stay flagged, nothing else moves. */
  lemma MarkMissingIdempotent(l: Ledger, dbFiles: seq<string>, scanned: seq<string>)
    ensures MarkMissing(MarkMissing(l, dbFiles, scanned), dbFiles, scanned) == MarkMissing(l, dbFiles, scanned)
  {
    var once := MarkMissing(l, dbFiles, scanned);
    var twice := MarkMissing(once, dbFiles, scanned);
    assert forall f :: f in twice ==> twice[f] == once[f];
  }

  /**
   * What `DeleteFiles` gets from the world. `tempDirOk(f)`: creating the
   * "temp" directory succeeds while handling `f`. `decrypt(a)`: the MD5 digest
   * of the plaintext decrypted from artifact `a`, or None when DecryptFile
   * throws. `fileDeleteOk(a)`: `File.Delete(a)` succeeds.
   */
  datatype DeleteOracles = DeleteOracles(
    tempDirOk: string -> bool,
    decrypt: string -> Option<seq<byte>>,
    fileDeleteOk: string -> bool)

  /**
   * The state of a deletion run. `Halted(code)` is `Environment.Exit(code)`;
   * `Crashed` is an exception nothing catches.
   */
  datatype Progress =
    | Running(ledger: Ledger, artifacts: set<string>)
    | Halted(code: int, ledger: Ledger, artifacts: set<string>)
    | Crashed(ledger: Ledger, artifacts: set<string>)

  /** Decrypting `artifact` reproduces the hash stored for `f`. */
  ghost predicate Verified(l: Ledger, f: string, artifact: string, o: DeleteOracles) {
    f in l && o.decrypt(artifact).Some? && l[f].hash == HashString(o.decrypt(artifact).value)
  }

  /**
   * The loop body of `DeleteFiles` for one flagged name `f`. The hash is read,
   * the row is removed, and only then is the artifact examined: it is
   * decrypted into the temp directory, the plaintext is hashed, and the
   * artifact is deleted only on a match. A failing temp directory or a failing
   * decryption halts with exit code 1. Hashing a file the decryption did not
   * write throws, which is a crash.
   */
  function DeleteOne(l: Ledger, artifacts: set<string>, f: string, rules: PathRules,
                     input: Root, output: string, temp: string, o: DeleteOracles): (r: Progress)
    ensures r.ledger == l - {f}
    ensures r.artifacts <= artifacts
    ensures var target := DeleteTarget(rules, input, output, f);
      && (r.artifacts != artifacts ==> r.Running? && Verified(l, f, target, o) && o.fileDeleteOk(target)
                                       && r.artifacts == artifacts - {target})
      && (r.Halted? <==> target in artifacts && (!o.tempDirOk(f) || o.decrypt(target).None?))
      && (r.Halted? ==> r.code == 1)
      && (r.Crashed? <==> target in artifacts && o.tempDirOk(f) && o.decrypt(target).Some?
                          && ReadBackPath(rules, temp, f) != TempWritePath(temp, f))
      && ((target in artifacts && o.tempDirOk(f) && ReadBackPath(rules, temp, f) == TempWritePath(temp, f)
           && Verified(l, f, target, o) && o.fileDeleteOk(target))
          ==> r == Running(l - {f}, artifacts - {target}))
  {
    var hash := GetHashFromDb(l, f);
    var remaining := DeleteFromDb(l, f);
    var target := DeleteTarget(rules, input, output, f);
    if target !in artifacts then Running(remaining, artifacts)
    else if !o.tempDirOk(f) then Halted(1, remaining, artifacts)
    else
      match o.decrypt(target)
      case None => Halted(1, remaining, artifacts)
      case Some(plain) =>
        // the temp directory now holds the plaintext at TempWritePath(temp, f)
        if ReadBackPath(rules, temp, f) != TempWritePath(temp, f) then Crashed(remaining, artifacts)
        else if hash == Some(HashString(plain)) then
          if o.fileDeleteOk(target) then Running(remaining, artifacts - {target})
          else Running(remaining, artifacts)
        else Running(remaining, artifacts)
  }

  /**
   * The read-back step only crashes as written. The intended rules read back
   * `TempWritePath`, the file just decrypted, so this holds by construction: it
   * records the correction, not a consequence derived from it.
   */
  lemma IntendedNeverCrashes(l: Ledger, artifacts: set<string>, f: string,
                             input: Root, output: string, temp: string, o: DeleteOracles)
    ensures !DeleteOne(l, artifacts, f, Intended, input, output, temp, o).Crashed?
  {
  }

  /**
   * The loop of `DeleteFiles` over the flagged names, stopping at the first
   * halt or crash. Every row it reaches is removed, rows it does not list are
   * untouched, and an artifact disappears only when the decrypted plaintext of
   * that very artifact hashed to the stored hash of a listed name.
   */
  function ApplyDeletions(l: Ledger, artifacts: set<string>, names: seq<string>, rules: PathRules,
                          input: Root, output: string, temp: string, o: DeleteOracles): (r: Progress)
    ensures r.ledger.Keys <= l.Keys
    ensures forall g :: g in r.ledger ==> r.ledger[g] == l[g]
    ensures forall g :: g in l && g !in names ==> g in r.ledger
    ensures r.Running? ==> forall g :: g in r.ledger <==> g in l && g !in names
    ensures r.Halted? ==> r.code == 1
    ensures rules == Intended ==> !r.Crashed?
    ensures r.artifacts <= artifacts
    ensures forall a :: a in artifacts && a !in r.artifacts ==>
      exists f :: f in names && a == DeleteTarget(rules, input, output, f) && Verified(l, f, a, o)
    decreases |names|
  {
    if |names| == 0 then Running(l, artifacts)
    else
      var f := names[0];
      assert forall g :: g in names <==> g == f || g in names[1..];
      match DeleteOne(l, artifacts, f, rules, input, output, temp, o)
      case Running(l', artifacts') =>
        var r := ApplyDeletions(l', artifacts', names[1..], rules, input, output, temp, o);
        assert forall g, a :: g in l' && Verified(l', g, a, o) ==> Verified(l, g, a, o);
        r
      case stopped => stopped
  }

  /** A run that goes through took its first step normally and continued from there. */
  lemma ApplyCons(l: Ledger, artifacts: set<string>, names: seq<string>, rules: PathRules,
                  input: Root, output: string, temp: string, o: DeleteOracles)
    requires |names| > 0
    requires ApplyDeletions(l, artifacts, names, rules, input, output, temp, o).Running?
    ensures var step := DeleteOne(l, artifacts, names[0], rules, input, output, temp, o);
      && step.Running?
      && ApplyDeletions(l, artifacts, names, rules, input, output, temp, o)
         == ApplyDeletions(step.ledger, step.artifacts, names[1..], rules, input, output, temp, o)
  {
  }

  /** A listed name other than the first is listed in the rest. */
  lemma InTail(names: seq<string>, f: string)
    requires f in names && f != names[0]
    ensures f in names[1..]
  {
    assert names == names[..1] + names[1..];
  }

  /** Handling another name leaves this name's verification as it was. */
  lemma OtherStepKeepsVerified(l: Ledger, artifacts: set<string>, g: string, rules: PathRules,
                               input: Root, output: string, temp: string, o: DeleteOracles,
                               f: string, target: string)
    requires f != g && Verified(l, f, target, o)
    ensures Verified(DeleteOne(l, artifacts, g, rules, input, output, temp, o).ledger, f, target, o)
  {
  }

  /**
   * The converse of the artifact clause of `ApplyDeletions`: a run that goes
   * through removes the artifact of every listed name whose artifact is
   * present, decrypts, reads back from where it was written, hashes to the
   * stored hash and can be deleted. Rows for other names removed on the way
   * leave the name's own row, and so its verification, as it was.
   */
  lemma {:induction false} ApplyDeletionsRemovesVerified(l: Ledger, artifacts: set<string>, names: seq<string>,
                                                         rules: PathRules, input: Root, output: string,
                                                         temp: string, o: DeleteOracles, f: string)
    requires f in names
    requires DeleteTarget(rules, input, output, f) in artifacts
    requires o.tempDirOk(f) && ReadBackPath(rules, temp, f) == TempWritePath(temp, f)
    requires Verified(l, f, DeleteTarget(rules, input, output, f), o)
    requires o.fileDeleteOk(DeleteTarget(rules, input, output, f))
    ensures var r := ApplyDeletions(l, artifacts, names, rules, input, output, temp, o);
      r.Running? ==> DeleteTarget(rules, input, output, f) !in r.artifacts
    decreases |names|
  {
    if ApplyDeletions(l, artifacts, names, rules, input, output, temp, o).Running? {
      var target := DeleteTarget(rules, input, output, f);
      ApplyCons(l, artifacts, names, rules, input, output, temp, o);
      var step := DeleteOne(l, artifacts, names[0], rules, input, output, temp, o);
      var rest := ApplyDeletions(step.ledger, step.artifacts, names[1..], rules, input, output, temp, o);
      if names[0] == f {
        assert target !in step.artifacts;
      } else if target in step.artifacts {
        InTail(names, f);
        OtherStepKeepsVerified(l, artifacts, names[0], rules, input, output, temp, o, f, target);
        ApplyDeletionsRemovesVerified(step.ledger, step.artifacts, names[1..], rules, input, output, temp, o, f);
      }
    }
  }

  /**
   * A completed run over exactly the flagged names leaves a ledger with no
   * flagged row and every unflagged row as it was.
   */
  lemma CompletedRunClearsFlags(l: Ledger, artifacts: set<string>, names: seq<string>, rules: PathRules,
                                input: Root, output: string, temp: string, o: DeleteOracles)
    requires forall f :: f in names <==> f in l && l[f].deleted
    requires ApplyDeletions(l, artifacts, names, rules, input, output, temp, o).Running?
    ensures var r := ApplyDeletions(l, artifacts, names, rules, input, output, temp, o);
      forall g :: g in r.ledger <==> g in l && !l[g].deleted
  {
  }

  /**
   * Under the intended rules a file's encrypt-then-delete round trip closes:
   * once its flagged row is processed and the artifact decrypts to the stored
   * digest, the artifact encryption wrote is gone.
   */
  lemma IntendedRemovesEncryptedArtifact(l: Ledger, artifacts: set<string>, f: string, digest: seq<byte>,
                                         input: Root, output: string, temp: string, o: DeleteOracles)
    requires f in l && l[f].hash == HashString(digest)
    requires ArtifactPath(input, output, f) in artifacts
    requires o.tempDirOk(f) && o.decrypt(ArtifactPath(input, output, f)) == Some(digest)
    requires o.fileDeleteOk(ArtifactPath(input, output, f))
    ensures DeleteOne(l, artifacts, f, Intended, input, output, temp, o)
         == Running(l - {f}, artifacts - {ArtifactPath(input, output, f)})
  {
  }

  /**
   * The mismatch case: when the stored hash is not the hex of the decrypted
   * artifact's digest, the row goes and the artifact stays.
   */
  lemma MismatchKeepsArtifact(l: Ledger, artifacts: set<string>, f: string, plain: seq<byte>, rules: PathRules,
                              input: Root, output: string, temp: string, o: DeleteOracles)
    requires f in l && l[f].hash != LowerHex(plain)
    requires o.decrypt(DeleteTarget(rules, input, output, f)) == Some(plain)
    ensures var r := DeleteOne(l, artifacts, f, rules, input, output, temp, o);
      r.ledger == l - {f} && r.artifacts == artifacts
  {
  }

  /** The first two names of a listing without repeats differ. */
  lemma FirstTwoDiffer(names: seq<string>)
    ensures Distinct(names) && |names| > 1 ==> names[1] in names && names[0] != names[1]
  {
  }

  /** A listing without repeats of a one-name set is that name alone. */
  lemma SingletonListing(names: seq<string>, f: string)
    requires Distinct(names)
    requires forall g :: g in names <==> g == f
    ensures names == [f]
  {
    assert f in names;
    assert names[0] in names;
    FirstTwoDiffer(names);
  }

  /**
   * Detection followed by deletion, for one file removed from the source while
   * every other tracked file is still scanned: marking flags exactly that
   * file, and applying the flagged list (in whatever order it is listed)
   * removes its row and the artifact that decrypts to its stored digest.
   */
  lemma {:induction false} DetectThenApply(l: Ledger, f: string, digest: seq<byte>, scanned: seq<string>,
                                           dbFiles: seq<string>, names: seq<string>, artifacts: set<string>,
                                           input: Root, output: string, temp: string, o: DeleteOracles)
    requires f in l && !l[f].deleted && l[f].hash == HashString(digest) && f !in scanned
    requires forall g :: g in l && g != f ==> !l[g].deleted && g in scanned
    requires forall g :: g in dbFiles <==> g in l
    requires Distinct(names)
    requires forall g :: g in names <==> g in MarkMissing(l, dbFiles, scanned) && MarkMissing(l, dbFiles, scanned)[g].deleted
    requires ArtifactPath(input, output, f) in artifacts
    requires o.tempDirOk(f) && o.decrypt(ArtifactPath(input, output, f)) == Some(digest)
    requires o.fileDeleteOk(ArtifactPath(input, output, f))
    ensures ApplyDeletions(MarkMissing(l, dbFiles, scanned), artifacts, names, Intended, input, output, temp, o)
         == Running(l - {f}, artifacts - {ArtifactPath(input, output, f)})
  {
    var marked := MarkMissing(l, dbFiles, scanned);
    assert forall g :: g in marked ==> (marked[g].deleted <==> g == f);
    assert f in names;
    SingletonListing(names, f);
    assert marked - {f} == l - {f} by {
      assert forall g :: g in marked && g != f ==> marked[g] == l[g];
    }
    IntendedRemovesEncryptedArtifact(marked, artifacts, f, digest, input, output, temp, o);
    var step := DeleteOne(marked, artifacts, f, Intended, input, output, temp, o);
    assert names[1..] == [];
    assert ApplyDeletions(step.ledger, step.artifacts, [], Intended, input, output, temp, o) == step;
  }

  /**
   * As written, the artifact of a file one directory below the input root is
   * never examined: deletion looks for another path, so the row goes and the
   * artifact stays even though it would have verified.
   */
  lemma AsWrittenOrphansNestedArtifact(l: Ledger, f: string, digest: seq<byte>,
                                       temp: string, o: DeleteOracles)
    requires f == "/src/sub/a.txt"
    requires f in l && l[f].hash == HashString(digest)
    requires o.tempDirOk(f) && o.decrypt("/enc/sub/a.txt.pgp") == Some(digest)
    ensures EncryptTarget(AsWritten, "/src", "/enc", f) == "/enc/sub/a.txt.pgp"
    ensures DeleteOne(l, {"/enc/sub/a.txt.pgp"}, f, AsWritten, "/src", "/enc", temp, o)
         == Running(l - {f}, {"/enc/sub/a.txt.pgp"})
  {
    AsWrittenNestedTargetsDiffer("/src", "/enc", f);
  }

  /**
   * As written, deleting a file named "a.pgp" decrypts its artifact to
   * "temp/a" and then hashes "temp/a.pgp", which does not exist: the run
   * crashes after the row is already gone.
   */
  lemma AsWrittenCrashesOnPgpName(l: Ledger, f: string, temp: string, o: DeleteOracles)
    requires f == "/src/a.pgp" && temp == "temp"
    requires o.tempDirOk(f) && o.decrypt(DeleteTargetAsWritten("/enc", f)).Some?
    ensures DeleteOne(l, {DeleteTargetAsWritten("/enc", f)}, f, AsWritten, "/src", "/enc", temp, o)
         == Crashed(l - {f}, {DeleteTargetAsWritten("/enc", f)})
  {
    AsWrittenReadBackMisses(temp, f);
  }
}

=== FILE: hex.dfy ===
/**
 * The digest string of `HashHelper.GetHashFromFile`: the MD5 bytes rendered by
 * `BitConverter.ToString` ("0A-1B-..."), the dashes removed with
 * `Replace("-", "")`, the result lower-cased. MD5 itself is not modelled; the
 * digest bytes are an input.
 */
module HexDigest {
  import opened Wrappers
  import opened Text

  newtype byte = x: int | 0 <= x < 256

  /** Length of an MD5 digest in bytes. */
  const Md5Length: nat := 16

  /** The hex digit for `k` as BitConverter writes it (upper case). */
  function UpperDigit(k: int): char
    requires 0 <= k < 16
  {
    if k < 10 then ('0' as int + k) as char else ('A' as int + k - 10) as char
  }

  /** The hex digit for `k` in lower case. */
  function LowerDigit(k: int): char
    requires 0 <= k < 16
  {
    if k < 10 then ('0' as int + k) as char else ('a' as int + k - 10) as char
  }

  predicate IsLowerHexDigit(c: char) {
    '0' <= c <= '9' || 'a' <= c <= 'f'
  }

  /** The value of a lower-case hex digit; None for any other character. */
  function HexValue(c: char): (v: Option<int>)
    ensures v.Some? <==> IsLowerHexDigit(c)
    ensures v.Some? ==> 0 <= v.value < 16 && LowerDigit(v.value) == c
  {
    if '0' <= c <= '9' then Some(c as int - '0' as int)
    else if 'a' <= c <= 'f' then Some(c as int - 'a' as int + 10)
    else None
  }

  function UpperPair(b: byte): string {
    [UpperDigit(b as int / 16), UpperDigit(b as int % 16)]
  }

  function LowerPair(b: byte): string {
    [LowerDigit(b as int / 16), LowerDigit(b as int % 16)]
  }

  /** `BitConverter.ToString(bytes)`: upper-case pairs joined by '-'. */
  function BitConverterToString(bytes: seq<byte>): (s: string)
    ensures |bytes| > 0 ==> |s| == 3 * |bytes| - 1
    decreases |bytes|
  {
    if |bytes| == 0 then ""
    else if |bytes| == 1 then UpperPair(bytes[0])
    else UpperPair(bytes[0]) + "-" + BitConverterToString(bytes[1..])
  }

  /** Byte `i` prints as the upper-case pair at positions `3 * i` and `3 * i + 1`, and a '-' follows every pair but the last. */
  lemma {:induction false} BitConverterLayout(bytes: seq<byte>)
    ensures forall i :: 0 <= i < |bytes| ==> BitConverterToString(bytes)[3 * i..3 * i + 2] == UpperPair(bytes[i])
    ensures forall i :: 0 <= i < |bytes| - 1 ==> BitConverterToString(bytes)[3 * i + 2] == '-'
    decreases |bytes|
  {
    if |bytes| > 1 {
      var s, rest := BitConverterToString(bytes), BitConverterToString(bytes[1..]);
      BitConverterLayout(bytes[1..]);
      assert s == UpperPair(bytes[0]) + "-" + rest;
      forall i | 1 <= i < |bytes|
        ensures s[3 * i..3 * i + 2] == UpperPair(bytes[i])
      {
        var j := i - 1;
        assert s[3 * i..3 * i + 2] == rest[3 * j..3 * j + 2];
        assert bytes[1..][j] == bytes[i];
      }
      forall i | 1 <= i < |bytes| - 1
        ensures s[3 * i + 2] == '-'
      {
        var j := i - 1;
        assert s[3 * i + 2] == rest[3 * j + 2];
      }
    }
  }

  /** Upper-case pairs with no separator. */
  function UpperHex(bytes: seq<byte>): string
    decreases |bytes|
  {
    if |bytes| == 0 then "" else UpperPair(bytes[0]) + UpperHex(bytes[1..])
  }

  /** The reference encoding: lower-case pairs with no separator. */
  function LowerHex(bytes: seq<byte>): string
    decreases |bytes|
  {
    if |bytes| == 0 then "" else LowerPair(bytes[0]) + LowerHex(bytes[1..])
  }

  /** Reads a string of lower-case hex pairs back into bytes. */
  function DecodeHex(s: string): Option<seq<byte>>
    decreases |s|
  {
    if |s| == 0 then Some([])
    else if |s| == 1 then None
    else
      match (HexValue(s[0]), HexValue(s[1]), DecodeHex(s[2..]))
      case (Some(hi), Some(lo), Some(rest)) => Some([(hi * 16 + lo) as byte] + rest)
      case _ => None
  }

  /** A pair of hex digits holds no dash, so removing dashes keeps it. */
  lemma PairKeptByDashRemoval(b: byte)
    ensures Replace(UpperPair(b), "-", "") == UpperPair(b)
  {
    CharAbsent(UpperPair(b), "-");
    ReplaceWithoutOccurrence(UpperPair(b), "-", "");
  }

  /** Removing a one-character separator drops a leading copy of it. */
  lemma LeadingSeparatorRemoved(sep: string, rest: string)
    requires |sep| == 1
    ensures Replace(sep + rest, sep, "") == Replace(rest, sep, "")
  {
    var tail := sep + rest;
    assert tail[..1] == sep && tail[1..] == rest;
  }

  /** Removing a one-character separator from `p + sep + rest` keeps a separator-free `p` and drops the joining one. */
  lemma JoinedSeparatorRemoved(p: string, sep: string, rest: string)
    requires |sep| == 1
    requires Replace(p, sep, "") == p
    ensures Replace(p + sep + rest, sep, "") == p + Replace(rest, sep, "")
  {
    var tail := sep + rest;
    assert p + sep + rest == p + tail;
    ReplaceCharDistributes(p, tail, sep, "");
    LeadingSeparatorRemoved(sep, rest);
    assert Replace(p + tail, sep, "") == p + Replace(tail, sep, "");
  }

  /** Removing the dashes from BitConverter's text leaves the bare upper-case pairs. */
  lemma {:induction false} DashesRemoved(bytes: seq<byte>)
    ensures Replace(BitConverterToString(bytes), "-", "") == UpperHex(bytes)
    decreases |bytes|
  {
    if |bytes| == 1 {
      PairKeptByDashRemoval(bytes[0]);
      assert UpperHex(bytes) == UpperPair(bytes[0]) + UpperHex(bytes[1..]);
    } else if |bytes| > 1 {
      PairKeptByDashRemoval(bytes[0]);
      JoinedSeparatorRemoved(UpperPair(bytes[0]), "-", BitConverterToString(bytes[1..]));
      DashesRemoved(bytes[1..]);
    }
  }

  /** Lower-casing the upper-case pairs gives the lower-case pairs. */
  lemma {:induction false} LowercasedPairs(bytes: seq<byte>)
    ensures ToLowerInvariant(UpperHex(bytes)) == LowerHex(bytes)
    decreases |bytes|
  {
    if |bytes| > 0 {
      var b := bytes[0];
      ToLowerDistributes(UpperPair(b), UpperHex(bytes[1..]));
      assert ToLowerInvariant(UpperPair(b)) == LowerPair(b);
      LowercasedPairs(bytes[1..]);
    }
  }

  /** Every character of the encoding is a lower-case hex digit, two per byte. */
  lemma {:induction false} LowerHexShape(bytes: seq<byte>)
    ensures |LowerHex(bytes)| == 2 * |bytes|
    ensures forall i :: 0 <= i < |LowerHex(bytes)| ==> IsLowerHexDigit(LowerHex(bytes)[i])
    decreases |bytes|
  {
    if |bytes| > 0 {
      LowerHexShape(bytes[1..]);
      var p, rest := LowerPair(bytes[0]), LowerHex(bytes[1..]);
      forall i | 0 <= i < |p + rest|
        ensures IsLowerHexDigit((p + rest)[i])
      {
        if i >= 2 {
          assert (p + rest)[i] == rest[i - 2];
        }
      }
    }
  }

  /** Decoding the encoding gives the bytes back. */
  lemma {:induction false} DecodeLowerHex(bytes: seq<byte>)
    ensures DecodeHex(LowerHex(bytes)) == Some(bytes)
    decreases |bytes|
  {
    if |bytes| > 0 {
      var b := bytes[0];
      var s := LowerHex(bytes);
      LowerHexShape(bytes);
      assert s[2..] == LowerHex(bytes[1..]);
      DecodeLowerHex(bytes[1..]);
      assert HexValue(s[0]) == Some(b as int / 16);
      assert HexValue(s[1]) == Some(b as int % 16);
      assert bytes == [b] + bytes[1..];
    }
  }

  /**
   * `GetHashFromFile`'s digest string. It is the lower-case hex of the digest
   * with no separator, two characters from [0-9a-f] per byte, and it decodes
   * back to the digest.
   */
  function HashString(bytes: seq<byte>): (s: string)
    ensures s == LowerHex(bytes)
    ensures |s| == 2 * |bytes|
    ensures forall i :: 0 <= i < |s| ==> IsLowerHexDigit(s[i])
    ensures DecodeHex(s) == Some(bytes)
  {
    DashesRemoved(bytes);
    LowercasedPairs(bytes);
    LowerHexShape(bytes);
    DecodeLowerHex(bytes);
    ToLowerInvariant(Replace(BitConverterToString(bytes), "-", ""))
  }

  /** Distinct digests give distinct strings, so the ledger's string keys dedup exactly by digest. */
  lemma HashStringInjective(a: seq<byte>, b: seq<byte>)
    requires HashString(a) == HashString(b)
    ensures a == b
  {
    assert Some(a) == DecodeHex(HashString(a));
  }

  /** An MD5 digest string is 32 characters long. */
  lemma Md5StringLength(bytes: seq<byte>)
    requires |bytes| == Md5Length
    ensures |HashString(bytes)| == 32
  {
  }
}

=== FILE: ledger.dfy ===
/**
 * The ledger of `HashHelper`: the SQLite table
 * `files(filename UNIQUE, hash UNIQUE, timestamp, deleted DEFAULT 0)` as a map
 * from filename to row. Timestamps are wall-clock values and are left out.
 * Every write is one statement in its own transaction: a statement that would
 * break a UNIQUE constraint raises, the transaction is rolled back, and the
 * ledger is left as it was.
 */
module HashHelper {
  import opened Wrappers

  datatype Row = Row(hash: string, deleted: bool)

  type Ledger = map<string, Row>

  /** The table's UNIQUE constraint on `hash`, which covers flagged rows too. */
  ghost predicate Unique(l: Ledger) {
    forall f, g :: f in l && g in l && f != g ==> l[f].hash != l[g].hash
  }

  /** Some row, flagged or not, holds `hash`. */
  ghost predicate HashHeld(l: Ledger, hash: string) {
    exists g :: g in l && l[g].hash == hash
  }

  /** The hash column. */
  function Hashes(l: Ledger): set<string> {
    set f | f in l :: l[f].hash
  }

  /** The write statements the program issues. */
  datatype Statement =
    | Insert(filename: string, hash: string)      // INSERT INTO files (filename, hash, timestamp)
    | UpdateHash(filename: string, hash: string)  // UPDATE files SET hash WHERE filename
    | MarkDeleted(filename: string)               // UPDATE files SET deleted = 1 WHERE filename
    | DeleteRow(filename: string)                 // DELETE FROM files WHERE filename

  /**
   * What SQLite does with one statement: the new table, or None when the
   * statement would break a UNIQUE constraint and raises. An UPDATE or DELETE
   * whose WHERE matches no row succeeds and changes nothing. A committed
   * statement never creates a second row with an existing hash.
   */
  function Execute(l: Ledger, s: Statement): (r: Option<Ledger>)
    ensures r.Some? && Unique(l) ==> Unique(r.value)
    ensures s.Insert? ==> (r.None? <==> s.filename in l || HashHeld(l, s.hash))
    ensures s.UpdateHash? ==>
      (r.None? <==> s.filename in l && exists g :: g in l && g != s.filename && l[g].hash == s.hash)
    ensures !s.Insert? && !s.UpdateHash? ==> r.Some?
  {
    match s
    case Insert(f, h) =>
      if f in l || h in Hashes(l) then None else Some(l[f := Row(h, false)])
    case UpdateHash(f, h) =>
      if f !in l then Some(l)
      else if exists g :: g in l && g != f && l[g].hash == h then None
      else Some(l[f := l[f].(hash := h)])
    case MarkDeleted(f) =>
      if f in l then Some(l[f := l[f].(deleted := true)]) else Some(l)
    case DeleteRow(f) =>
      Some(l - {f})
  }

  /**
   * `WriteQuery`: run the statement in a transaction, commit on success, roll
   * back on an exception. The result is either the statement's full effect or
   * the ledger unchanged, and the UNIQUE invariant survives either way.
   */
  function WriteQuery(l: Ledger, s: Statement): (r: Ledger)
    ensures Unique(l) ==> Unique(r)
    ensures Execute(l, s).Some? ==> r == Execute(l, s).value
    ensures Execute(l, s).None? ==> r == l
  {
    match Execute(l, s)
    case None => l
    case Some(committed) => committed
  }

  /**
   * `StoreHash`. An insert adds the row (filename, hash, deleted = false)
   * when neither key is present and otherwise changes nothing. An update
   * rewrites only the hash of the named row, keeps its deleted flag, and
   * changes nothing when the row is missing or the hash belongs to another
   * row. Neither form ever clears a deleted flag.
   */
  function StoreHash(l: Ledger, filename: string, hash: string, update: bool): (r: Ledger)
    ensures Unique(l) ==> Unique(r)
    ensures !update && filename !in l && !HashHeld(l, hash) ==> r == l[filename := Row(hash, false)]
    ensures !update && (filename in l || HashHeld(l, hash)) ==> r == l
    ensures update && filename in l && (forall g :: g in l && g != filename ==> l[g].hash != hash) ==>
      r == l[filename := Row(hash, l[filename].deleted)]
    ensures update && (filename !in l || exists g :: g in l && g != filename && l[g].hash == hash) ==> r == l
    ensures forall g :: g in l && l[g].deleted ==> g in r && r[g].deleted
  {
    WriteQuery(l, if update then UpdateHash(filename, hash) else Insert(filename, hash))
  }

  /** `GetHashFromDb`: the stored hash, or None (the program's null) for an untracked name. */
  function GetHashFromDb(l: Ledger, filename: string): (r: Option<string>)
    ensures r.Some? <==> filename in l
    ensures r.Some? ==> r.value == l[filename].hash
  {
    if filename in l then Some(l[filename].hash) else None
  }

  /** `SELECT hash FROM files WHERE hash = @hash`, read through ReadSingleQuery. */
  function SelectHashByHash(l: Ledger, hash: string): Option<string> {
    if hash in Hashes(l) then Some(hash) else None
  }

  /**
   * `FindDupeHash`: a null result is false, a result equal to the argument is
   * true, anything else is logged and false. True exactly when some row,
   * flagged or not, holds the hash.
   */
  function FindDupeHash(l: Ledger, hash: string): (found: bool)
    ensures found <==> HashHeld(l, hash)
  {
    match SelectHashByHash(l, hash)
    case None => false
    case Some(result) => result == hash
  }

  /** `SELECT filename FROM files WHERE filename = @filename`. */
  function SelectFilename(l: Ledger, filename: string): Option<string> {
    if filename in l then Some(filename) else None
  }

  /** `FindDupeFileName`, with the same three-way reading as FindDupeHash. */
  function FindDupeFileName(l: Ledger, filename: string): (found: bool)
    ensures found <==> filename in l
  {
    match SelectFilename(l, filename)
    case None => false
    case Some(result) => result == filename
  }

  /**
   * `MarkForDeletion`: sets the flag of the named row only; no row appears or
   * disappears and no hash changes. An untracked name changes nothing.
   */
  function MarkForDeletion(l: Ledger, filename: string): (r: Ledger)
    ensures r.Keys == l.Keys
    ensures forall g :: g in r ==> r[g].hash == l[g].hash
    ensures forall g :: g in r ==> r[g].deleted == (l[g].deleted || g == filename)
  {
    WriteQuery(l, MarkDeleted(filename))
  }

  /** `DeleteFromDb`: removes exactly the named row and leaves every other row as it was. */
  function DeleteFromDb(l: Ledger, filename: string): (r: Ledger)
    ensures r.Keys == l.Keys - {filename}
    ensures forall g :: g in r ==> r[g] == l[g]
  {
    WriteQuery(l, DeleteRow(filename))
  }

  /** The names of the flagged rows. */
  function FlaggedNames(l: Ledger): set<string> {
    set f | f in l && l[f].deleted
  }

  /** No element of `names` appears twice. */
  predicate Distinct(names: seq<string>) {
    forall i, j :: 0 <= i < j < |names| ==> names[i] != names[j]
  }

  /**
   * Lists a set of names in some order. SQLite gives no order without
   * ORDER BY, so the order here is unspecified too.
   */
  method Enumerate(names: set<string>) returns (listed: seq<string>)
    ensures Distinct(listed)
    ensures forall f :: f in listed <==> f in names
  {
    listed := [];
    var rest := names;
    while rest != {}
      invariant rest <= names
      invariant Distinct(listed)
      invariant forall f :: f in listed <==> f in names && f !in rest
      decreases rest
    {
      var f :| f in rest;
      listed := listed + [f];
      rest := rest - {f};
    }
  }

  /** `GetDbFilesList`: every filename in the ledger, each once. */
  method GetDbFilesList(l: Ledger) returns (names: seq<string>)
    ensures Distinct(names)
    ensures forall f :: f in names <==> f in l
  {
    names := Enumerate(l.Keys);
  }

  /** `GetDeletedFiles`: exactly the flagged filenames, each once. */
  method GetDeletedFiles(l: Ledger) returns (names: seq<string>)
    ensures Distinct(names)
    ensures forall f :: f in names <==> f in l && l[f].deleted
  {
    names := Enumerate(FlaggedNames(l));
  }

  /** After a committed insert every lookup sees the new row and no other row moved. */
  lemma InsertThenRead(l: Ledger, filename: string, hash: string)
    requires filename !in l && !HashHeld(l, hash)
    ensures var r := StoreHash(l, filename, hash, false);
      && GetHashFromDb(r, filename) == Some(hash)
      && FindDupeHash(r, hash)
      && FindDupeFileName(r, filename)
      && !r[filename].deleted
      && forall g :: g != filename ==> GetHashFromDb(r, g) == GetHashFromDb(l, g)
  {
    var r := StoreHash(l, filename, hash, false);
    assert r[filename].hash == hash;
  }

  /** After a committed update the row answers with the new hash, and the old hash is free. */
  lemma UpdateThenRead(l: Ledger, filename: string, hash: string)
    requires Unique(l)
    requires filename in l && l[filename].hash != hash && !HashHeld(l, hash)
    ensures var r := StoreHash(l, filename, hash, true);
      && GetHashFromDb(r, filename) == Some(hash)
      && !FindDupeHash(r, l[filename].hash)
      && r.Keys == l.Keys
      && r[filename].deleted == l[filename].deleted
      && (forall g :: g in l && g != filename ==> r[g] == l[g])
      && forall g :: g != filename ==> GetHashFromDb(r, g) == GetHashFromDb(l, g)
  {
    var r := StoreHash(l, filename, hash, true);
    var old_ := l[filename].hash;
    assert forall g :: g in r ==> r[g].hash != old_;
  }

  /** Deleting a row frees both its filename and, by uniqueness, its hash. */
  lemma DeleteThenRead(l: Ledger, filename: string)
    requires Unique(l)
    requires filename in l
    ensures var r := DeleteFromDb(l, filename);
      && GetHashFromDb(r, filename) == None
      && !FindDupeFileName(r, filename)
      && !FindDupeHash(r, l[filename].hash)
  {
    var r := DeleteFromDb(l, filename);
    assert forall g :: g in r ==> r[g].hash != l[filename].hash;
  }

  /** Flagging twice is flagging once. */
  lemma MarkIdempotent(l: Ledger, filename: string)
    ensures MarkForDeletion(MarkForDeletion(l, filename), filename) == MarkForDeletion(l, filename)
  {
  }
}

=== FILE: pass.dfy ===
/**
 * One call of `ProcessFiles`: key generation, the two deletion commands, the
 * directory mirror, the file loop (decrypt-only or sync), marking rows whose
 * file has gone, and optionally propagating those deletions. Everything the
 * pass learns from the disk or from PGP is an input: the scan, whether key
 * files exist, and which directory creations, encryptions and decryptions
 * succeed.
 */
module SyncPass {
  import opened Wrappers
  import opened HexDigest
  import opened HashHelper
  import opened ArtifactPaths
  import opened ChangeClassifier
  import opened DeletionReconciler

  /** The command-line switches that steer a pass. */
  datatype Options = Options(
    keyGen: bool,              // -g
    daemon: bool,              // -D
    decrypt: bool,             // -d
    reviewDeletions: bool,     // --review-deletions
    applyDeletions: bool,      // --apply-deletions
    propagateDeletions: bool)  // --propagate-deletions

  /**
   * The roots of a pass. `temp` is the full name of the temporary directory the
   * deletion check decrypts into; `rules` selects the path expressions.
   */
  datatype Settings = Settings(input: Root, output: string, temp: string, rules: PathRules)

  /** The persistent state a pass reads and changes: the ledger, the files and the directories under the output root. */
  datatype World = World(ledger: Ledger, outputFiles: set<string>, dirs: set<string>)

  /**
   * What the pass learns from outside. `mkdirOk(d)`: creating output directory
   * `d` succeeds; `encryptOk(f)`: EncryptFile on source `f` returns normally;
   * `decryptOk(f)`: decrypt-only mode decrypts `f` without an exception.
   */
  datatype Environment = Environment(
    publicKeyPresent: bool,
    privateKeyPresent: bool,
    keyGenOk: bool,
    mkdirOk: string -> bool,
    encryptOk: string -> bool,
    decryptOk: string -> bool,
    deletion: DeleteOracles)

  /** How a pass ends: it returns, it calls `Environment.Exit(code)`, or an exception escapes it. */
  datatype Outcome =
    | Completed(world: World)
    | Exited(code: int, world: World)
    | Threw(world: World)

  /** The output directories a list of source directories maps to. */
  ghost function MirroredDirs(dirs: seq<string>, s: Settings): set<string> {
    set d | d in dirs :: MirrorTarget(s.rules, s.input, s.output, d)
  }

  /** The directory loop: the directories that exist afterwards, and whether a creation failed (which exits with 1). */
  datatype Mirror = Mirror(dirs: set<string>, failed: bool)

  /**
   * Create the mirror of each source directory that does not exist yet,
   * stopping at the first creation that fails. Only directories whose creation
   * succeeded are added, and a failure happens exactly when some missing
   * mirror cannot be created.
   */
  function MirrorDirectories(dirs: seq<string>, existing: set<string>, s: Settings,
                             mkdirOk: string -> bool): (m: Mirror)
    ensures existing <= m.dirs <= existing + MirroredDirs(dirs, s)
    ensures forall d :: d in m.dirs && d !in existing ==> mkdirOk(d)
    ensures !m.failed ==> m.dirs == existing + MirroredDirs(dirs, s)
    ensures m.failed <==> exists d :: d in dirs && MirrorTarget(s.rules, s.input, s.output, d) !in existing
                                     && !mkdirOk(MirrorTarget(s.rules, s.input, s.output, d))
    decreases |dirs|
  {
    if |dirs| == 0 then Mirror(existing, false)
    else
      var target := MirrorTarget(s.rules, s.input, s.output, dirs[0]);
      assert forall d :: d in dirs <==> d == dirs[0] || d in dirs[1..];
      if target in existing then MirrorDirectories(dirs[1..], existing, s, mkdirOk)
      else if !mkdirOk(target) then Mirror(existing, true)
      else
        var rest := MirrorDirectories(dirs[1..], existing + {target}, s, mkdirOk);
        assert rest.failed ==> exists d :: d in dirs && MirrorTarget(s.rules, s.input, s.output, d) !in existing
                                           && !mkdirOk(MirrorTarget(s.rules, s.input, s.output, d));
        rest
  }

  /**
   * The decrypt-only loop: each source file is decrypted to its name without
   * ".pgp" directly under the output root; a failure is logged and the loop
   * goes on.
   */
  function DecryptAll(files: seq<string>, outputFiles: set<string>, output: string,
                      decryptOk: string -> bool): (written: set<string>)
    ensures written == outputFiles + set f | f in files && decryptOk(f) :: DecryptModeTarget(output, f)
    decreases |files|
  {
    if |files| == 0 then outputFiles
    else
      var rest := DecryptAll(files[1..], outputFiles, output, decryptOk);
      assert forall f :: f in files <==> f == files[0] || f in files[1..];
      ghost var restTargets := set f | f in files[1..] && decryptOk(f) :: DecryptModeTarget(output, f);
      ghost var targets := set f | f in files && decryptOk(f) :: DecryptModeTarget(output, f);
      assert targets == restTargets + (if decryptOk(files[0]) then {DecryptModeTarget(output, files[0])} else {});
      if decryptOk(files[0]) then rest + {DecryptModeTarget(output, files[0])} else rest
  }

  /**
   * Everything the loop body needs to delete the artifact of `f`: it is
   * present, the temp directory can be made, the plaintext is read back from
   * where it was written, it hashes to the stored hash, and the delete succeeds.
   */
  ghost predicate ReadyToDelete(l: Ledger, artifacts: set<string>, f: string, s: Settings, o: DeleteOracles) {
    var target := DeleteTarget(s.rules, s.input, s.output, f);
    && target in artifacts
    && o.tempDirOk(f)
    && ReadBackPath(s.rules, s.temp, f) == TempWritePath(s.temp, f)
    && Verified(l, f, target, o)
    && o.fileDeleteOk(target)
  }

  /**
   * `DeleteFiles`: process every flagged row. On a normal return exactly the
   * flagged rows are gone. An artifact is removed only when it is the
   * deletion target of a flagged name and decrypts to that name's stored hash.
   */
  method DeleteFiles(l: Ledger, artifacts: set<string>, s: Settings, o: DeleteOracles) returns (p: Progress)
    ensures forall g :: g in p.ledger ==> g in l && p.ledger[g] == l[g]
    ensures forall g :: g in l && !l[g].deleted ==> g in p.ledger
    ensures p.Running? ==> forall g :: g in p.ledger <==> g in l && !l[g].deleted
    ensures p.Halted? ==> p.code == 1
    ensures s.rules == Intended ==> !p.Crashed?
    ensures p.artifacts <= artifacts
    ensures forall a :: a in artifacts && a !in p.artifacts ==>
      exists f :: f in l && l[f].deleted && a == DeleteTarget(s.rules, s.input, s.output, f) && Verified(l, f, a, o)
    ensures p.Running? ==> forall f :: f in l && l[f].deleted && ReadyToDelete(l, artifacts, f, s, o) ==>
      DeleteTarget(s.rules, s.input, s.output, f) !in p.artifacts
  {
    var names := GetDeletedFiles(l);
    p := ApplyDeletions(l, artifacts, names, s.rules, s.input, s.output, s.temp, o);
    if p.Running? {
      forall f | f in l && l[f].deleted && ReadyToDelete(l, artifacts, f, s, o)
        ensures DeleteTarget(s.rules, s.input, s.output, f) !in p.artifacts
      {
        ApplyDeletionsRemovesVerified(l, artifacts, names, s.rules, s.input, s.output, s.temp, o, f);
      }
    }
  }

  /** A deletion run inside the pass: a normal return continues with `next`, a halt or crash ends the pass. */
  function EndOfDeletion(p: Progress, dirs: set<string>, next: World -> Outcome): Outcome {
    match p
    case Running(l, a) => next(World(l, a, dirs))
    case Halted(code, l, a) => Exited(code, World(l, a, dirs))
    case Crashed(l, a) => Threw(World(l, a, dirs))
  }

  /**
   * `ProcessFiles`. `files` and `dirs` are what `Directory.GetFiles` and
   * `Directory.GetDirectories` return for the input root, each file with the
   * MD5 digest of its content.
   */
  method ProcessFiles(opts: Options, s: Settings, env: Environment, w: World,
                      files: seq<ScannedFile>, dirs: seq<string>) returns (r: Outcome)
    // the UNIQUE hash column survives every pass, however it ends
    ensures Unique(w.ledger) ==> Unique(r.world.ledger)
    // key generation always exits, and succeeds only outside daemon mode with a key file missing
    ensures opts.keyGen ==> r.Exited? && r.world == w && (r.code == 0 || r.code == 1)
    ensures opts.keyGen ==>
      (r.code == 0 <==> !opts.daemon && !(env.publicKeyPresent && env.privateKeyPresent) && env.keyGenOk)
    // reviewing deletions only lists them
    ensures !opts.keyGen && opts.reviewDeletions ==> r == Exited(0, w)
    // applying deletions never scans, and a clean exit leaves exactly the unflagged rows
    ensures !opts.keyGen && !opts.reviewDeletions && opts.applyDeletions ==>
      !r.Completed? && r.world.dirs == w.dirs && (r.Exited? ==> r.code == 0 || r.code == 1)
    ensures !opts.keyGen && !opts.reviewDeletions && opts.applyDeletions && r.Exited? && r.code == 0 ==>
      forall g :: g in r.world.ledger <==> g in w.ledger && !w.ledger[g].deleted
    // applying deletions removes output files only after verifying them, and a clean exit removes every ready one
    ensures !opts.keyGen && !opts.reviewDeletions && opts.applyDeletions ==>
      && r.world.outputFiles <= w.outputFiles
      && forall a :: a in w.outputFiles && a !in r.world.outputFiles ==>
           exists f :: f in w.ledger && w.ledger[f].deleted && a == DeleteTarget(s.rules, s.input, s.output, f)
                       && Verified(w.ledger, f, a, env.deletion)
    ensures !opts.keyGen && !opts.reviewDeletions && opts.applyDeletions && r.Exited? && r.code == 0 ==>
      forall f :: f in w.ledger && w.ledger[f].deleted && ReadyToDelete(w.ledger, w.outputFiles, f, s, env.deletion) ==>
        DeleteTarget(s.rules, s.input, s.output, f) !in r.world.outputFiles
    // decrypt-only mode never touches the ledger
    ensures !opts.keyGen && !opts.reviewDeletions && !opts.applyDeletions && opts.decrypt ==>
      r.Exited? && r.world.ledger == w.ledger
    // under the intended path rules nothing escapes the pass
    ensures s.rules == Intended ==> !r.Threw?
    // a pass that returns was a sync pass, mirrored every directory and left no untracked row unflagged
    ensures r.Completed? ==>
      !opts.keyGen && !opts.reviewDeletions && !opts.applyDeletions && !opts.decrypt
      && r.world.dirs == w.dirs + MirroredDirs(dirs, s)
      && forall g :: g in r.world.ledger && g !in Paths(files) ==> r.world.ledger[g].deleted
    // without propagation no row is lost and only missing files gain a flag
    ensures r.Completed? && !opts.propagateDeletions ==>
      && w.ledger.Keys <= r.world.ledger.Keys
      && forall g :: g in r.world.ledger ==>
           (r.world.ledger[g].deleted <==> (g in w.ledger && w.ledger[g].deleted) || g !in Paths(files))
    // without propagation every new output file is the artifact of a scanned file whose encryption succeeded
    ensures r.Completed? && !opts.propagateDeletions ==>
      forall a :: a in r.world.outputFiles && a !in w.outputFiles ==>
        exists f :: f in Paths(files) && env.encryptOk(f) && a == EncryptTarget(s.rules, s.input, s.output, f)
    // with propagation every remaining row is unflagged and belongs to a scanned file
    ensures r.Completed? && opts.propagateDeletions ==>
      forall g :: g in r.world.ledger ==> !r.world.ledger[g].deleted && g in Paths(files)
    // with propagation an original output file disappears only as the decryptable target of a dropped row,
    // and for an unscanned row only after its own hash was verified
    ensures r.Completed? && opts.propagateDeletions ==>
      forall a :: a in w.outputFiles && a !in r.world.outputFiles ==>
        exists f :: a == DeleteTarget(s.rules, s.input, s.output, f) && f !in r.world.ledger
                    && env.deletion.decrypt(a).Some? && (f in Paths(files) || Verified(w.ledger, f, a, env.deletion))
  {
    if opts.keyGen {
      if opts.daemon {
        return Exited(1, w);
      }
      if !env.publicKeyPresent || !env.privateKeyPresent {
        if env.keyGenOk {
          return Exited(0, w);
        }
        return Exited(1, w);
      }
      return Exited(1, w);
    }

    if opts.reviewDeletions {
      var flagged := GetDeletedFiles(w.ledger);
      return Exited(0, w);
    }

    if opts.applyDeletions {
      var p := DeleteFiles(w.ledger, w.outputFiles, s, env.deletion);
      return EndOfDeletion(p, w.dirs, done => Exited(0, done));
    }

    var m := MirrorDirectories(dirs, w.dirs, s, env.mkdirOk);
    if m.failed {
      return Exited(1, w.(dirs := m.dirs));
    }

    if opts.decrypt {
      var written := DecryptAll(Paths(files), w.outputFiles, s.output, env.decryptOk);
      return Exited(0, World(w.ledger, written, m.dirs));
    }

    var run := SyncAll(w.ledger, w.outputFiles, files, s.rules, s.input, s.output, env.encryptOk);
    SyncAllArtifactsFromEncryptions(w.ledger, w.outputFiles, files, s.rules, s.input, s.output, env.encryptOk);
    var dbFiles := GetDbFilesList(run.ledger);
    var marked := MarkMissing(run.ledger, dbFiles, Paths(files));
    assert Unique(run.ledger) ==> Unique(marked);

    if opts.propagateDeletions {
      var p := DeleteFiles(marked, run.artifacts, s, env.deletion);
      return EndOfDeletion(p, m.dirs, done => Completed(done));
    }
    return Completed(World(marked, run.artifacts, m.dirs));
  }
}

=== FILE: paths.dfy ===
/**
 * How the program turns a source path into a path under the output root.
 * Encryption uses `file.Replace(Inputdir, Ouputdir) + ".pgp"`, directory
 * mirroring uses `dir.Replace(Inputdir, Ouputdir)`, deletion uses
 * `Ouputdir + "/" + Path.GetFileName(f) + ".pgp"`, and the decryption steps
 * strip ".pgp" from the file name with `Replace(".pgp", "")`.
 *
 * `PathRules.AsWritten` selects these expressions exactly. `PathRules.Intended`
 * selects one prefix-relocating mapping for encryption, mirroring and deletion,
 * and reads the deletion check's plaintext back from the file it was
 * decrypted to.
 */
module ArtifactPaths {
  import opened Text

  /** A configured root directory; .NET rejects an empty one before any path is built. */
  type Root = s: string | |s| > 0 witness "/"

  /** The extension of an encrypted artifact. */
  const PgpSuffix: string := ".pgp"

  datatype PathRules = AsWritten | Intended

  /** `file.Replace(Inputdir, Ouputdir) + ".pgp"`: every occurrence of the input root is replaced. */
  function EncryptTargetAsWritten(input: Root, output: string, file: string): (r: string)
    ensures |r| >= |PgpSuffix| && r[|r| - |PgpSuffix|..] == PgpSuffix
  {
    Replace(file, input, output) + PgpSuffix
  }

  /** `Ouputdir + "/" + Path.GetFileName(f) + ".pgp"`: the artifact looked for on deletion. */
  function DeleteTargetAsWritten(output: string, file: string): string {
    output + "/" + GetFileName(file) + PgpSuffix
  }

  /** Decrypt-only mode's output: the file name with ".pgp" removed, placed directly under the output root. */
  function DecryptModeTarget(output: string, file: string): string {
    output + "/" + Replace(GetFileName(file), PgpSuffix, "")
  }

  /** Where the deletion check decrypts the artifact of `file` to. */
  function TempWritePath(temp: string, file: string): string {
    temp + "/" + Replace(GetFileName(file), PgpSuffix, "")
  }

  /** Where the deletion check, as written, reads the plaintext back from to hash it. */
  function TempReadPathAsWritten(temp: string, file: string): string {
    temp + "/" + GetFileName(file)
  }

  /**
   * As written, deletion looks directly under the output root, at the source's
   * file name plus ".pgp": the directories between the root and the file are dropped.
   */
  lemma DeleteTargetAsWrittenShape(output: string, file: string)
    ensures output + "/" <= DeleteTargetAsWritten(output, file)
    ensures GetFileName(DeleteTargetAsWritten(output, file)) == GetFileName(file) + PgpSuffix
  {
    assert '/' !in PgpSuffix;
    FileNameOfExtendedJoin(output, GetFileName(file), PgpSuffix);
  }

  /** `dir + "/" + Replace(name, ".pgp", "")` lies directly in `dir`, named as `name` with ".pgp" removed. */
  lemma StrippedJoin(dir: string, file: string)
    ensures dir + "/" <= dir + "/" + Replace(GetFileName(file), PgpSuffix, "")
    ensures GetFileName(dir + "/" + Replace(GetFileName(file), PgpSuffix, "")) == Replace(GetFileName(file), PgpSuffix, "")
    ensures !Contains(GetFileName(file), PgpSuffix) ==>
      GetFileName(dir + "/" + Replace(GetFileName(file), PgpSuffix, "")) == GetFileName(file)
  {
    var stripped := Replace(GetFileName(file), PgpSuffix, "");
    ReplaceKeepsCharOut(GetFileName(file), PgpSuffix, "", '/');
    ReplaceWithoutOccurrence(GetFileName(file), PgpSuffix, "");
    FileNameOfJoin(dir, stripped);
    assert dir + "/" + stripped == (dir + "/") + stripped;
  }

  /**
   * Decrypt-only mode writes directly under the output root, to the source's
   * file name with ".pgp" removed; a name without ".pgp" is kept.
   */
  lemma DecryptModeTargetShape(output: string, file: string)
    ensures output + "/" <= DecryptModeTarget(output, file)
    ensures GetFileName(DecryptModeTarget(output, file)) == Replace(GetFileName(file), PgpSuffix, "")
    ensures !Contains(GetFileName(file), PgpSuffix) ==> GetFileName(DecryptModeTarget(output, file)) == GetFileName(file)
  {
    StrippedJoin(output, file);
  }

  /**
   * The deletion check decrypts directly into the temp directory, to the
   * source's file name with ".pgp" removed; a name without ".pgp" is kept.
   */
  lemma TempWritePathShape(temp: string, file: string)
    ensures temp + "/" <= TempWritePath(temp, file)
    ensures GetFileName(TempWritePath(temp, file)) == Replace(GetFileName(file), PgpSuffix, "")
    ensures !Contains(GetFileName(file), PgpSuffix) ==> GetFileName(TempWritePath(temp, file)) == GetFileName(file)
  {
    StrippedJoin(temp, file);
  }

  /** As written, the read-back path lies directly in the temp directory and keeps the source's unstripped name. */
  lemma TempReadPathAsWrittenShape(temp: string, file: string)
    ensures temp + "/" <= TempReadPathAsWritten(temp, file)
    ensures GetFileName(TempReadPathAsWritten(temp, file)) == GetFileName(file)
  {
    FileNameOfJoin(temp, GetFileName(file));
    assert TempReadPathAsWritten(temp, file) == (temp + "/") + GetFileName(file);
  }

  /** The intended mapping: swap a leading input root for the output root; other paths are kept. */
  function Relocate(input: Root, output: string, p: string): string {
    if input <= p then output + p[|input|..] else p
  }

  /** The intended artifact path of a source file. */
  function ArtifactPath(input: Root, output: string, file: string): string {
    Relocate(input, output, file) + PgpSuffix
  }

  /** The output directory created for a source directory. */
  function MirrorTarget(rules: PathRules, input: Root, output: string, dir: string): string {
    match rules
    case AsWritten => Replace(dir, input, output)
    case Intended => Relocate(input, output, dir)
  }

  /**
   * As written, a path that does not contain the input root is encrypted next
   * to itself, and a path holding the root only as its prefix has that prefix
   * swapped for the output root.
   */
  lemma EncryptTargetAsWrittenCases(input: Root, output: string, file: string)
    ensures !Contains(file, input) ==> EncryptTargetAsWritten(input, output, file) == file + PgpSuffix
    ensures input <= file && !Contains(file[|input|..], input) ==>
      EncryptTargetAsWritten(input, output, file) == output + file[|input|..] + PgpSuffix
  {
    ReplaceWithoutOccurrence(file, input, output);
    ReplaceLeading(file, input, output);
  }

  /**
   * Under both rules a directory outside the input root is mirrored onto
   * itself, and a directory holding the root only as its prefix is relocated
   * under the output root.
   */
  lemma MirrorTargetCases(rules: PathRules, input: Root, output: string, dir: string)
    ensures !Contains(dir, input) ==> MirrorTarget(rules, input, output, dir) == dir
    ensures input <= dir && !Contains(dir[|input|..], input) ==>
      MirrorTarget(rules, input, output, dir) == output + dir[|input|..]
  {
    ReplaceWithoutOccurrence(dir, input, output);
    ReplaceLeading(dir, input, output);
    assert input <= dir ==> OccursAt(dir, input, 0);
  }

  /** The artifact the encryption step writes for `file`. */
  function EncryptTarget(rules: PathRules, input: Root, output: string, file: string): string {
    match rules
    case AsWritten => EncryptTargetAsWritten(input, output, file)
    case Intended => ArtifactPath(input, output, file)
  }

  /** The artifact the deletion step examines for `file`. */
  function DeleteTarget(rules: PathRules, input: Root, output: string, file: string): string {
    match rules
    case AsWritten => DeleteTargetAsWritten(output, file)
    case Intended => ArtifactPath(input, output, file)
  }

  /** The path the deletion step hashes after decrypting to TempWritePath. */
  function ReadBackPath(rules: PathRules, temp: string, file: string): string {
    match rules
    case AsWritten => TempReadPathAsWritten(temp, file)
    case Intended => TempWritePath(temp, file)
  }

  /**
   * As written, the encryption path and the deletion path agree for a file
   * directly under the input root, provided the root does not occur again in
   * the rest of the path.
   */
  lemma AsWrittenTargetsAgreeAtTop(input: Root, output: string, name: string)
    requires '/' !in name
    requires !Contains("/" + name, input)
    ensures EncryptTargetAsWritten(input, output, input + "/" + name)
         == DeleteTargetAsWritten(output, input + "/" + name)
  {
    var f := input + "/" + name;
    assert f[|input|..] == "/" + name;
    ReplaceLeading(f, input, output);
    FileNameOfJoin(input, name);
  }

  /** As written, a file one directory below the input root is encrypted to one path and looked for at another. */
  lemma AsWrittenNestedTargets(input: Root, output: string, sub: string, name: string)
    requires '/' !in name
    requires !Contains(sub + "/" + name, input)
    ensures EncryptTargetAsWritten(input, output, input + sub + "/" + name) == output + sub + "/" + name + PgpSuffix
    ensures DeleteTargetAsWritten(output, input + sub + "/" + name) == output + "/" + name + PgpSuffix
  {
    var f := input + sub + "/" + name;
    assert EncryptTargetAsWritten(input, output, f) == output + sub + "/" + name + PgpSuffix by {
      assert input <= f && f[|input|..] == sub + "/" + name;
      EncryptTargetAsWrittenCases(input, output, f);
      assert output + (sub + "/" + name) + PgpSuffix == output + sub + "/" + name + PgpSuffix;
    }
    assert GetFileName(f) == name by {
      assert f == (input + sub) + "/" + name;
      FileNameOfJoin(input + sub, name);
    }
  }

  /** Concretely: "/src/sub/a.txt" is encrypted to "/enc/sub/a.txt.pgp" but deletion looks at "/enc/a.txt.pgp". */
  lemma AsWrittenNestedTargetsDiffer(input: Root, output: string, file: string)
    requires input == "/src" && output == "/enc" && file == "/src/sub/a.txt"
    ensures EncryptTargetAsWritten(input, output, file) == "/enc/sub/a.txt.pgp"
    ensures DeleteTargetAsWritten(output, file) == "/enc/a.txt.pgp"
  {
    var sub, name := "/sub", "a.txt";
    MissingCharMeansAbsent(sub + "/" + name, input, 2);
    assert file == input + sub + "/" + name;
    AsWrittenNestedTargets(input, output, sub, name);
  }

  /**
   * As written, the input root is replaced wherever it occurs: a file whose
   * path repeats the root and a file whose path names the output root are
   * encrypted to the same artifact.
   */
  lemma AsWrittenCollision(input: Root, output: string, rest: string)
    requires !Contains(rest, input) && !Contains(output + rest, input)
    ensures EncryptTargetAsWritten(input, output, input + input + rest)
         == EncryptTargetAsWritten(input, output, input + output + rest)
  {
    var f := input + input + rest;
    assert f[..|input|] == input && f[|input|..] == input + rest;
    assert Replace(f, input, output) == output + Replace(input + rest, input, output);
    assert (input + rest)[|input|..] == rest;
    ReplaceLeading(input + rest, input, output);
    var g := input + output + rest;
    assert g[|input|..] == output + rest;
    ReplaceLeading(g, input, output);
  }

  /** Concretely: "/data/data.txt" and "/data/enc.txt" both map to "/enc/enc.txt.pgp". */
  lemma AsWrittenTargetsCollide(input: Root, output: string, f: string, g: string)
    requires input == "/data" && output == "/enc" && f == "/data/data.txt" && g == "/data/enc.txt"
    ensures EncryptTargetAsWritten(input, output, f) == EncryptTargetAsWritten(input, output, g)
  {
    var rest := ".txt";
    assert f == input + input + rest;
    assert g == input + output + rest;
    assert rest[1] == 't' && (output + rest)[1] == 'e';
    MissingCharMeansAbsent(rest, input, 1);
    MissingCharMeansAbsent(output + rest, input, 1);
    AsWrittenCollision(input, output, rest);
  }

  /** The intended mapping is what Replace computes whenever the root occurs only as the leading prefix. */
  lemma RelocateAgreesWithReplace(input: Root, output: string, p: string)
    requires input <= p
    requires !Contains(p[|input|..], input)
    ensures Relocate(input, output, p) == Replace(p, input, output)
  {
    ReplaceLeading(p, input, output);
  }

  /** Under the intended mapping, distinct files below the input root never share an artifact. */
  lemma ArtifactPathInjective(input: Root, output: string, f: string, g: string)
    requires input <= f && input <= g
    requires ArtifactPath(input, output, f) == ArtifactPath(input, output, g)
    ensures f == g
  {
    var a, b := Relocate(input, output, f), Relocate(input, output, g);
    assert a == ArtifactPath(input, output, f)[..|a|];
    assert b == ArtifactPath(input, output, g)[..|b|];
    assert f[|input|..] == a[|output|..];
    assert g[|input|..] == b[|output|..];
    assert f == input + f[|input|..];
    assert g == input + g[|input|..];
  }

  /**
   * Under the intended rules the deletion step looks for exactly the artifact
   * encryption wrote. Both rules use `ArtifactPath`, so this holds by
   * construction: it records the correction, not a consequence derived from it.
   */
  lemma IntendedTargetsAgree(input: Root, output: string, file: string)
    ensures DeleteTarget(Intended, input, output, file) == EncryptTarget(Intended, input, output, file)
  {
  }

  /**
   * As written, the deletion check reads back the file it decrypted exactly
   * when the file name does not contain ".pgp".
   */
  lemma AsWrittenReadBackMatchesIff(temp: string, file: string)
    ensures TempReadPathAsWritten(temp, file) == TempWritePath(temp, file)
        <==> !Contains(GetFileName(file), PgpSuffix)
  {
    var name := GetFileName(file);
    ReplaceIsIdentityIff(name, PgpSuffix, "");
    var stripped := Replace(name, PgpSuffix, "");
    if temp + "/" + name == temp + "/" + stripped {
      assert name == (temp + "/" + name)[|temp| + 1..];
      assert stripped == (temp + "/" + stripped)[|temp| + 1..];
    }
  }

  /** As written, deleting the artifact of "/src/a.pgp" decrypts to one file and hashes another. */
  lemma AsWrittenReadBackMisses(temp: string, file: string)
    requires temp == "temp" && file == "/src/a.pgp"
    ensures TempWritePath(temp, file) == "temp/a"
    ensures TempReadPathAsWritten(temp, file) == "temp/a.pgp"
  {
    var name := "a.pgp";
    assert GetFileName(file) == name by {
      assert file == "/src" + "/" + name;
      FileNameOfJoin("/src", name);
    }
    assert Replace(name, PgpSuffix, "") == "a" by {
      assert name[..4] != PgpSuffix && name[1..] == PgpSuffix;
      assert Replace(name, PgpSuffix, "") == "a" + Replace(PgpSuffix, PgpSuffix, "");
      assert PgpSuffix[..4] == PgpSuffix && PgpSuffix[4..] == "";
    }
  }
}

=== FILE: text.dfy ===
/**
 * The three .NET string operations the program builds paths and digests with:
 * `String.Replace(string, string)`, `Path.GetFileName` (Unix separator) and
 * `String.ToLowerInvariant` (restricted to ASCII letters).
 */
module Text {

  /** `pattern` starts at index `i` of `s`. */
  ghost predicate OccursAt(s: string, pattern: string, i: int) {
    0 <= i && i + |pattern| <= |s| && s[i..i + |pattern|] == pattern
  }

  /** `pattern` occurs somewhere in `s`: the reference notion Replace is judged against. */
  ghost predicate Contains(s: string, pattern: string) {
    exists i :: OccursAt(s, pattern, i)
  }

  /**
   * `String.Replace(oldValue, newValue)`: scan left to right, replace each
   * occurrence of `oldValue` and resume after it, so occurrences never overlap.
   * The comparison is ordinal. .NET throws on an empty `oldValue`, hence the
   * precondition.
   */
  function Replace(s: string, oldValue: string, newValue: string): (r: string)
    requires |oldValue| > 0
    ensures |newValue| <= |oldValue| ==> |r| <= |s|
    decreases |s|
  {
    if |s| < |oldValue| then s
    else if s[..|oldValue|] == oldValue then newValue + Replace(s[|oldValue|..], oldValue, newValue)
    else [s[0]] + Replace(s[1..], oldValue, newValue)
  }

  /** A string in which `oldValue` never occurs comes back from Replace unchanged. */
  lemma {:induction false} ReplaceWithoutOccurrence(s: string, oldValue: string, newValue: string)
    requires |oldValue| > 0
    ensures !Contains(s, oldValue) ==> Replace(s, oldValue, newValue) == s
    decreases |s|
  {
    if |s| < |oldValue| || Contains(s, oldValue) {
    } else {
      assert !OccursAt(s, oldValue, 0);
      assert s[0..|oldValue|] == s[..|oldValue|];
      forall i | OccursAt(s[1..], oldValue, i)
        ensures OccursAt(s, oldValue, i + 1)
      {
        assert s[1..][i..i + |oldValue|] == s[i + 1..i + 1 + |oldValue|];
      }
      ReplaceWithoutOccurrence(s[1..], oldValue, newValue);
      assert s == [s[0]] + s[1..];
    }
  }

  /** Replace introduces no character that is in neither the input nor the replacement. */
  lemma {:induction false} ReplaceKeepsCharOut(s: string, oldValue: string, newValue: string, c: char)
    requires |oldValue| > 0
    ensures c !in s && c !in newValue ==> c !in Replace(s, oldValue, newValue)
    decreases |s|
  {
    if |s| < |oldValue| {
    } else if s[..|oldValue|] == oldValue {
      ReplaceKeepsCharOut(s[|oldValue|..], oldValue, newValue, c);
    } else {
      ReplaceKeepsCharOut(s[1..], oldValue, newValue, c);
    }
  }

  /** A shrinking replacement strictly shortens every string in which the pattern occurs. */
  lemma {:induction false} ReplaceShrinks(s: string, oldValue: string, newValue: string)
    requires |newValue| < |oldValue|
    requires Contains(s, oldValue)
    ensures |Replace(s, oldValue, newValue)| < |s|
    decreases |s|
  {
    var i :| OccursAt(s, oldValue, i);
    if s[..|oldValue|] == oldValue {
    } else {
      assert i != 0;
      assert s[1..][i - 1..i - 1 + |oldValue|] == s[i..i + |oldValue|];
      assert OccursAt(s[1..], oldValue, i - 1);
      ReplaceShrinks(s[1..], oldValue, newValue);
    }
  }

  /** For a shrinking replacement, Replace is the identity exactly on strings without the pattern. */
  lemma ReplaceIsIdentityIff(s: string, oldValue: string, newValue: string)
    requires |newValue| < |oldValue|
    ensures Replace(s, oldValue, newValue) == s <==> !Contains(s, oldValue)
  {
    if Contains(s, oldValue) {
      ReplaceShrinks(s, oldValue, newValue);
    } else {
      ReplaceWithoutOccurrence(s, oldValue, newValue);
    }
  }

  /**
   * When `s` starts with `oldValue` and the rest holds no further occurrence,
   * only the leading copy is replaced.
   */
  lemma ReplaceLeading(s: string, oldValue: string, newValue: string)
    requires |oldValue| > 0
    ensures oldValue <= s && !Contains(s[|oldValue|..], oldValue) ==>
      Replace(s, oldValue, newValue) == newValue + s[|oldValue|..]
  {
    if oldValue <= s {
      assert s[..|oldValue|] == oldValue;
      ReplaceWithoutOccurrence(s[|oldValue|..], oldValue, newValue);
    }
  }

  /** A one-character pattern whose character is absent does not occur. */
  lemma CharAbsent(s: string, c: string)
    requires |c| == 1 && c[0] !in s
    ensures !Contains(s, c)
  {
  }

  /** A pattern with a character that `s` lacks does not occur in `s`. */
  lemma MissingCharMeansAbsent(s: string, pattern: string, k: int)
    requires 0 <= k < |pattern| && pattern[k] !in s
    ensures !Contains(s, pattern)
  {
    forall i | 0 <= i && i + |pattern| <= |s|
      ensures !OccursAt(s, pattern, i)
    {
      assert s[i..i + |pattern|][k] == s[i + k];
    }
  }

  /** Replacing a one-character pattern commutes with concatenation. */
  lemma {:induction false} ReplaceCharDistributes(x: string, y: string, c: string, newValue: string)
    requires |c| == 1
    ensures Replace(x + y, c, newValue) == Replace(x, c, newValue) + Replace(y, c, newValue)
    decreases |x|
  {
    if |x| == 0 {
      assert x + y == y;
    } else {
      assert (x + y)[..1] == x[..1];
      assert (x + y)[1..] == x[1..] + y;
      ReplaceCharDistributes(x[1..], y, c, newValue);
    }
  }

  /**
   * `Path.GetFileName` with '/' as the only separator: the longest suffix of
   * `path` that holds no '/'.
   */
  function GetFileName(path: string): (name: string)
    ensures '/' !in name
    ensures |name| <= |path| && path[|path| - |name|..] == name
    ensures |name| < |path| ==> path[|path| - |name| - 1] == '/'
    decreases |path|
  {
    if |path| == 0 || path[|path| - 1] == '/' then ""
    else
      var init := path[..|path| - 1];
      var rest := GetFileName(init);
      assert path[|path| - |rest| - 1..] == init[|init| - |rest|..] + [path[|path| - 1]];
      assert |rest| < |init| ==> path[|path| - |rest| - 2] == init[|init| - |rest| - 1];
      rest + [path[|path| - 1]]
  }

  /** A '/'-free suffix preceded by '/' (or making up the whole path) is the file name. */
  lemma FileNameUnique(path: string, name: string)
    requires '/' !in name
    requires |name| <= |path| && path[|path| - |name|..] == name
    requires |name| < |path| ==> path[|path| - |name| - 1] == '/'
    ensures GetFileName(path) == name
  {
    var n := GetFileName(path);
    if |n| < |name| {
      assert false;
    } else if |name| < |n| {
      assert false;
    }
  }

  /** The file name of `dir + "/" + name` is `name` whenever `name` has no separator. */
  lemma FileNameOfJoin(dir: string, name: string)
    requires '/' !in name
    ensures GetFileName(dir + "/" + name) == name
  {
    var p := dir + "/" + name;
    assert p[|p| - |name|..] == name;
    assert p[|p| - |name| - 1] == '/';
    FileNameUnique(p, name);
  }

  /** Appending an extension without a separator to a file name extends the file name by it. */
  lemma FileNameOfExtendedJoin(dir: string, base: string, ext: string)
    requires '/' !in base && '/' !in ext
    ensures dir + "/" <= dir + "/" + base + ext
    ensures GetFileName(dir + "/" + base + ext) == base + ext
  {
    var name := base + ext;
    assert dir + "/" + base + ext == (dir + "/") + name;
    FileNameOfJoin(dir, name);
  }

  /** `Char.ToLowerInvariant` on ASCII letters; every other character is left alone. */
  function LowerChar(c: char): char {
    if 'A' <= c <= 'Z' then (c as int - 'A' as int + 'a' as int) as char else c
  }

  /** `String.ToLowerInvariant`, character by character. */
  function ToLowerInvariant(s: string): (r: string)
    ensures |r| == |s|
  {
    seq(|s|, i requires 0 <= i < |s| => LowerChar(s[i]))
  }

  /** Lower-casing commutes with concatenation. */
  lemma ToLowerDistributes(x: string, y: string)
    ensures ToLowerInvariant(x + y) == ToLowerInvariant(x) + ToLowerInvariant(y)
  {
    var l, r := ToLowerInvariant(x + y), ToLowerInvariant(x) + ToLowerInvariant(y);
    forall i | 0 <= i < |l|
      ensures l[i] == r[i]
    {
      if i < |x| {
        assert (x + y)[i] == x[i];
      } else {
        assert (x + y)[i] == y[i - |x|];
      }
    }
  }
}

=== FILE: wrappers.dfy ===
/** The optional value used wherever the program returns `null` or a query finds no row. */
module Wrappers {

  datatype Option<+T> = None | Some(value: T)
}
